=== FILE: README.md ===
# Voice-assistant pipeline: a Dafny model

This project models the core of a small voice-assistant system written in
Python. The model covers five parts:

- **Conversation backends.** Two LLM providers (Groq and Monei) share a bounded
  chat history. The Monei backend decodes a server-sent-event stream. A factory
  picks the provider from an environment setting.
- **YarnGPT speech synthesis.** The voice table, the checks a request passes,
  how the HTTP answer becomes a result, and the batch variant.
- **Media collector.** Audio/video classification by extension, YouTube link
  detection, copying a local file, downloading from YouTube, and collecting a
  directory tree.
- **Processor.** Conversion to WAV, audio extraction from video, the
  transcript record built from the recogniser's output, single-file
  processing and batches.
- **`SpeechPipeline`.** The object that ties these together: its
  collected-file and transcription accumulators, how each operation extends
  them, the naming rule for generated speech files, which transcriptions are
  spoken again, and the summary.

The exceptions the core raises itself become an `Err` of the `Results.Error`
datatype, and so do the failures of the outside calls that the model
represents by an oracle. Failures of calls it does not represent (the HTTP
request to YarnGPT, writing the synthesised audio, writing
transcriptions.json, starting ffmpeg, listing the speech directory) are
listed under "## Left out". Each Python object that is mutated in place
becomes an immutable value returned by the operation. Everything the code reads from outside becomes a
parameter:

- the filesystem (`Collector.FileSystem`: path to file or directory, and whether a copy would succeed);
- the sequence of `os.walk` steps;
- what yt-dlp downloaded;
- whether ffmpeg or moviepy succeeded, and what Whisper recognised (`Processor.Tools`);
- the HTTP status and body of a YarnGPT reply;
- the Groq completion;
- the lines of the Monei stream and how each payload decodes;
- the directory listing `speak` counts;
- the environment variables.

`_ensure_wav` cuts the path at its last dot, wherever that dot is. A file name
with an extension is converted beside the source (`Processor.ConvertedBesideSource`).
A name with no dot in a dotted directory is not: "a.b/c" becomes
"a_converted.wav" (`Processor.CutAtLastDotOfPath`). `process_file` never hits
this case, because every audio or video path it transcribes has an extension.

Modules:

| module | file | models |
|---|---|---|
| `Results` | results.dfy | `Option`, `Result` and the error kinds |
| `Text` | text.dfy | `str.strip`, `lower`, `title`, `startswith`/`endswith`, `in`, `f"{n:03d}"` |
| `Paths` | paths.dfy | `Path.name`, `.suffix`, `.stem`, `os.path.join`, `rsplit(".", 1)[0]` |
| `Sorting` | sorting.dfy | `sorted()` on strings |
| `Conversation` | conversation.dfy | llm_providers.py |
| `Synthesis` | synthesis.dfy | speech_to_text/yarngpt_tts.py |
| `Collector` | collector.dfy | speech_to_text/collector.py |
| `Processor` | processor.dfy | speech_to_text/processor.py |
| `Pipeline` | pipeline.dfy | speech_to_text/pipeline.py |

The chat-history cap is applied after the user's turn is added and before the
reply is added. A long conversation therefore holds 21 entries after an
answered turn, not 20. The model follows the code on this
(`Conversation.AnsweredHistoryReaches21`).

## Model

| member | source | states |
|---|---|---|
| Conversation.WithUserTurn | llm_providers.py:57-59 | after the user's turn is appended, the history holds min(n + 1, 20) entries and is the tail of the old history plus that turn |
| Conversation.ConcludeKeepsWindow | llm_providers.py:57-59 | both providers' window-then-reply step keeps the window invariant: the capped history, then the assistant's reply when there is one |
| Conversation.GroqAsk | llm_providers.py:56-73 | Groq `ask` keeps the window invariant and never exceeds 21 entries; it succeeds exactly when the completion call returned, and the reply is then the content stripped, with a missing content read as ""; the user's turn sits just before the reply |
| Conversation.MoneiAsk | llm_providers.py:88-110 | Monei `ask` keeps the window invariant; a refused request is an error; otherwise the reply is whatever the stream parser returns, never empty |
| Conversation.AnsweredHistoryReaches21 | llm_providers.py:57-72 | once 20 entries are held, an answered turn leaves 21 |
| Conversation.OldestDroppedFirst | llm_providers.py:58-59 | the oldest entries are the ones dropped; the survivors keep their order, followed by the user turn and the reply |
| Conversation.ParseSse | llm_providers.py:113-128 | the parsed reply is never empty; an empty stream is the empty-response error |
| Conversation.ReadEvents | llm_providers.py:115-128 | the stream loop fails only with the empty-response error or a payload that does not decode |
| Conversation.MalformedAborts | llm_providers.py:117-119 | a data line whose payload does not decode, reached before any complete event, fails the reply with that payload, whatever tokens came before and whatever lines follow |
| Conversation.TokensConcatenate | llm_providers.py:116-124 | when no complete event arrives, the reply is the token payloads concatenated in order; other events and non-data lines contribute nothing |
| Conversation.CompleteReplaces | llm_providers.py:120-122 | the first complete event decides the reply, which is its data stripped, discarding earlier tokens; blank data gives the empty-response error |
| Conversation.NothingAfterComplete | llm_providers.py:120-122 | lines after a complete event are never read, even ones that would not decode |
| Conversation.NonDataLinesIgnored | llm_providers.py:117-118 | removing a line without the `data: ` prefix does not change the result |
| Conversation.CreateProvider | llm_providers.py:140-149 | the provider is Groq or Monei exactly when the normalised name matches and that provider's key is set; an unknown name and a missing key give the matching error |
| Conversation.ProviderNameIgnoresCase | llm_providers.py:142 | the provider name is matched regardless of letter case |
| Conversation.PaddedProviderName | llm_providers.py:142 | the name is stripped after lower-casing: " Groq " selects Groq |
| Conversation.UnsetSelectsMonei | llm_providers.py:142 | an unset setting selects Monei |
| Synthesis.VoiceNames | speech_to_text/yarngpt_tts.py:141-143 | the voice names are listed in table order, one per voice |
| Synthesis.VoiceNamesDistinct | speech_to_text/yarngpt_tts.py:21-36 | no two voices in the table share a name |
| Synthesis.VoiceLookupIgnoresCase | speech_to_text/yarngpt_tts.py:88-89 | a requested voice that spells a table name in any case, with surrounding whitespace, resolves to that name |
| Synthesis.VoiceNamesAreNormal | speech_to_text/yarngpt_tts.py:88 | every table name is a fixed point of `strip().title()` |
| Synthesis.NormaliseVoice | speech_to_text/yarngpt_tts.py:88 | the normalised voice is the stripped request with only the case of its letters changed |
| Synthesis.NormaliseVoiceIdempotent | speech_to_text/yarngpt_tts.py:88 | normalising a normalised voice changes nothing |
| Synthesis.Validate | speech_to_text/yarngpt_tts.py:84-98 | checks run in the source's order (length, voice, format, key) and the first failure decides the error; the request passes exactly when all four hold, and the explicit key wins over the environment |
| Synthesis.LengthLimitIsInclusive | speech_to_text/yarngpt_tts.py:84-85 | 2000 characters pass the length check; 2001 are rejected |
| Synthesis.Synthesize | speech_to_text/yarngpt_tts.py:55-128 | success exactly on a valid request answered with status 200, returning the output path; otherwise the validation error, or the status plus the first min(len, 300) characters of the body |
| Text.Excerpt | speech_to_text/yarngpt_tts.py:125 | the kept error text is a prefix of the body, of length min(len(body), n) |
| Synthesis.BatchPathsDistinct | speech_to_text/yarngpt_tts.py:169 | different positions in a batch write to different files |
| Synthesis.BatchEntryShape | speech_to_text/yarngpt_tts.py:171-182 | an entry is the numbered path when that text was synthesised and None otherwise |
| Synthesis.BatchSynthesize | speech_to_text/yarngpt_tts.py:146-184 | one entry per text, in order, the i-th numbered i + 1; a failure does not stop the batch |
| Collector.IsAudio | speech_to_text/collector.py:27-29 | a path classified as audio has a suffix (the case-blindness and disjointness lemmas below are its partners) |
| Collector.IsVideo | speech_to_text/collector.py:32-34 | a path classified as video has a suffix |
| Collector.NeverAudioAndVideo | speech_to_text/collector.py:16-34 | the two extension sets are disjoint, so no path is both audio and video |
| Collector.ClassificationIgnoresCase | speech_to_text/collector.py:27-34 | two spellings of a path differing only in letter case are classified alike |
| Collector.IsYoutubeUrl | speech_to_text/collector.py:37-41 | a string is a YouTube link exactly when one of the three domains occurs in it |
| Collector.EmbeddedDomainIsYoutube | speech_to_text/collector.py:37-41 | any text with a YouTube domain embedded anywhere counts as a link |
| Collector.CollectLocalFile | speech_to_text/collector.py:44-73 | a missing path fails first, then an unsupported extension; the copy succeeds exactly for an existing, copyable, media file and lands at the output directory joined with the file's name |
| Collector.CollectedKeepsName | speech_to_text/collector.py:69-73 | the copy keeps the source's file name and extension |
| Collector.CollectFromYoutube | speech_to_text/collector.py:76-127 | success exactly when the download happened, otherwise the download error for the URL; the path ends with the title (or "unknown") plus `.wav` for audio and `.mp4` for video; for no title or a plain one, the file is in the output directory under exactly that name |
| Collector.DownloadIsClassified | speech_to_text/collector.py:119-124 | a download with no title or a plain one yields a file classified as audio when audio was asked for, and as video otherwise |
| Collector.WalkAndCollect | speech_to_text/collector.py:144-154 | the walk loop hands every file, directory by directory and in sorted name order, to the per-file step and concatenates the results |
| Collector.CollectFromDirectory | speech_to_text/collector.py:130-156 | a non-directory is refused; otherwise the result is the successful copies of the media files in visit order |
| Collector.OnlySuccessesCollected | speech_to_text/collector.py:148-153 | each collected path is the copy of some visited media file whose copy succeeded |
| Collector.NonMediaIgnored | speech_to_text/collector.py:148 | a non-media file in the walk changes nothing |
| Collector.HarvestAppend | speech_to_text/collector.py:144-154 | collecting two runs of paths in turn equals collecting their concatenation |
| Processor.EnsureWav | speech_to_text/processor.py:34-67 | the path is kept when it ends in `.wav` (in any case) or conversion failed; otherwise it is the text before the last dot of the whole path followed by `_converted.wav` |
| Processor.EnsureWavGivesWav | speech_to_text/processor.py:39-67 | the result is a WAV name exactly when the input was one or conversion succeeded |
| Processor.WavNeverConverted | speech_to_text/processor.py:39-40 | a `.wav` path is returned unchanged whatever the converter would do |
| Processor.ConvertedBesideSource | speech_to_text/processor.py:45 | when the file name has an extension, the converted file sits in the same directory, named stem + `_converted.wav` |
| Processor.DotlessPathConverted | speech_to_text/processor.py:45 | a path with no dot keeps all of its text: "notes" becomes "notes_converted.wav" |
| Processor.CutAtLastDotOfPath | speech_to_text/processor.py:45 | the cut is at the last dot of the path: "a.b/c" becomes "a_converted.wav", outside the file's directory |
| Processor.TrailingDotConverted | speech_to_text/processor.py:45 | a name ending in a dot loses only that dot: "talk." becomes "talk_converted.wav" |
| Processor.ExtractAudio | speech_to_text/processor.py:109-137 | a missing video fails with file-not-found, and a failed extraction with the extraction error; success exactly when it exists and extraction worked, giving the file `<stem>.wav` in the output directory |
| Processor.Shape | speech_to_text/processor.py:185-197 | the record keeps the audio path, strips the text, takes the reported language or "unknown", and maps the segments one to one in order, each keeping its times with its text stripped |
| Processor.ShapeIsClean | speech_to_text/processor.py:185-197 | the transcript record has stripped text and segments, and shaping it again changes nothing |
| Processor.LanguageOption | speech_to_text/processor.py:178-180 | a language is passed to the recogniser exactly when one was given and it is not empty, and then unchanged |
| Processor.TranscribeAudio | speech_to_text/processor.py:140-203 | a missing file fails first; success exactly when the recogniser answers for the WAV-converted path with the language option, and the record is then that answer shaped under the original path; no answer is the transcription error |
| Processor.ProcessFile | speech_to_text/processor.py:206-236 | unsupported extensions fail; audio is transcribed directly; for an existing video, a failed extraction is the extraction error, and otherwise the result succeeds exactly when the recogniser answers for `extracted_audio/<stem>.wav`, giving that answer shaped under the track's path |
| Processor.VideoTranscriptNamesExtractedTrack | speech_to_text/processor.py:227-230 | a video's transcript names the track extracted into `extracted_audio` |
| Processor.OutcomeRecordsResult | speech_to_text/processor.py:260-265 | a failure is recorded against the input path with the error that stopped it |
| Processor.ProcessBatch | speech_to_text/processor.py:239-267 | one outcome per input, in order, each the outcome of processing that file |
| Pipeline.NewPipeline | speech_to_text/pipeline.py:55-59 | a new pipeline has nothing collected and nothing transcribed |
| Pipeline.SubdirectoriesDistinct | speech_to_text/pipeline.py:62-65 | the four working directories are four different paths |
| Pipeline.Collect | speech_to_text/pipeline.py:78-101 | YouTube links are downloaded, existing files copied, anything else refused; only a success is appended and nothing else changes |
| Pipeline.LocalFileLandsInCollectDir | speech_to_text/pipeline.py:95-96 | a collected local file lands in the collection directory under its own name |
| Pipeline.CollectCounts | speech_to_text/pipeline.py:100 | a successful collect adds exactly one file, at the end of the summary's list; a failed one adds none |
| Pipeline.CollectDirectory | speech_to_text/pipeline.py:103-116 | the directory's collected files are appended in order; a non-directory changes nothing |
| Pipeline.Transcribe | speech_to_text/pipeline.py:118-137 | the result is that of processing the file; only a success is recorded |
| Pipeline.TranscribeAll | speech_to_text/pipeline.py:139-166 | with nothing collected, nothing happens; otherwise every collected file gets one outcome, failures included, and the transcription count grows by the number of files |
| Pipeline.CountEnding | speech_to_text/pipeline.py:188-194 | the count is at most the listing's length, 0 when no name has the ending and the whole length when every name has it |
| Pipeline.SpeechFileName | speech_to_text/pipeline.py:187-195 | a given file name is used as it is; otherwise the name is `speech_…` ending in `.<format>`, numbered one past the count of listed names ending in `.<format>` (`speech_001` when there are none) |
| Pipeline.CountIsFiltered | speech_to_text/pipeline.py:188-194 | the count equals the number of listed names with the ending, taken front to back, whatever names sit between them |
| Pipeline.CountAppend | speech_to_text/pipeline.py:188-194 | counting a listing in two parts adds the parts' counts |
| Pipeline.MixedListingNumbered | speech_to_text/pipeline.py:187-195 | with `a.wav` and `speech_001.mp3` listed and format `mp3`, the automatic name is `speech_002.mp3` |
| Pipeline.AutoNamingContinues | speech_to_text/pipeline.py:187-195 | when the speech directory holds exactly the first n automatic names, the next name is number n + 1 and is new |
| Pipeline.AutoNameCanRepeat | speech_to_text/pipeline.py:187-195 | the number is a count, not a search: with only `speech_002` present, the next automatic name is `speech_002` again |
| Pipeline.Speak | speech_to_text/pipeline.py:168-202 | success exactly when the request is valid (using the environment key) and answered with 200, giving the chosen file in the speech directory; otherwise the synthesis error |
| Pipeline.SpokenFileInTtsDir | speech_to_text/pipeline.py:195-197 | an automatically named speech file is written in the speech directory under that name |
| Pipeline.SpeakableTexts | speech_to_text/pipeline.py:219 | only non-empty texts are spoken, at most one per transcription; which ones, and in what order, is stated by the four lemmas below |
| Pipeline.SpokenTextsFromTranscripts | speech_to_text/pipeline.py:219 | every spoken text is the text of some successful transcription |
| Pipeline.SpeakableSnoc | speech_to_text/pipeline.py:219 | recording a transcription with non-empty text adds exactly that text, after the earlier ones |
| Pipeline.SilentSnoc | speech_to_text/pipeline.py:219 | recording a failure, or a transcription with empty text, does not change what is spoken |
| Pipeline.EveryTranscriptSpoken | speech_to_text/pipeline.py:219 | every transcription with non-empty text has its text spoken |
| Pipeline.SpeakableIsComprehension | speech_to_text/pipeline.py:219 | the texts spoken are exactly those of the front-to-back comprehension over the transcriptions, in the same order |
| Pipeline.SpeakableAppend | speech_to_text/pipeline.py:219 | the texts to speak from two runs of transcriptions are those of each, in order |
| Pipeline.SpeakTranscriptions | speech_to_text/pipeline.py:204-227 | the speakable texts go to one batch in the speech directory, numbered from 1 in transcription order |
| Pipeline.GetSummary | speech_to_text/pipeline.py:229-237 | the collected count equals the length of the file list, and the transcription count equals the number of records |

## Left out

- server.py and speech_to_text/__main__.py (the web server and the command line) are not part of this model.
- `_get_ffmpeg_path` and `_load_audio_as_numpy` are left out. They locate a binary and decode audio samples; their outcome reaches the model only through the `Tools` oracles.
- Pipeline.TranscribeAll: writing transcriptions.json (`save_transcriptions`, pipeline.py:163-164) is not modelled and is taken to succeed. In the source, a failed write raises after `transcriptions` has already been extended.
- `list_voices` (a copy of the voice table) is represented by the `Synthesis.Voices` constant.
- Calls into yt-dlp, moviepy, ffmpeg, Whisper, `requests` and the Groq and Monei services are oracles given as parameters. Their internals, timeouts and retries are not modelled.
- The import checks are left out: every `ImportError` for a missing yt-dlp, moviepy, whisper, groq or requests package. The `import requests` in `synthesize_speech` (yarngpt_tts.py:82) would fail before any validation.
- The `GroqProvider` and `MoneiProvider` constructors are modelled only as the credential check inside `Conversation.CreateProvider`.
- Copying file contents is part of the filesystem oracle (an entry's `copyable` flag). Creating directories (`ensure_dir`) is not modelled and is taken to succeed.
- Synthesis.Synthesize: writing the audio to the output path on a 200 reply (yarngpt_tts.py:118-120) is not modelled and is taken to succeed. So `Pipeline.Speak` with the file name "" returns Ok for the speech directory's own path, where `open()` would fail.
- Synthesis.Synthesize: `requests.post` raising before any answer arrives (yarngpt_tts.py:115) is not modelled, because `HttpReply` always carries a status.
- Processor.EnsureWav: `subprocess.run` raising when no ffmpeg binary exists (processor.py:31, 62) is not modelled; the converter oracle can only succeed or fail with a return code, and failure keeps the original path.
- Pipeline.Speak: `os.listdir` raising on the speech directory (pipeline.py:191) is not modelled; the listing is an input.
- `json.loads` of a stream payload is abstracted as the `decode` parameter.
- Printing and logging are left out.
- The Whisper model size is not passed to the recogniser oracle. It selects a model, not a behaviour the core depends on.
- Letter case is modelled for ASCII letters only, in `lower()` and `title()`.
- Paths are plain POSIX strings. pathlib's normalisation (repeated separators, `.` components, trailing separators) is not modelled.
- The order in which `os.walk` visits directories is an input. Only the sorting of file names within a directory is modelled.
- Processor.ProcessFile: for a video, the extracted track is assumed to exist afterwards, which is the moviepy oracle's promise.
- Pipeline.Speak: the directory listing it counts is an input. The model does not tie it to files written earlier.

=== FILE: collector.dfy ===
/**
 The media collector of collector.py: which files count as audio or video,
 which strings count as YouTube links, and how files are gathered into the
 collection directory, one at a time or by walking a directory tree.

 The filesystem is a parameter: which paths exist as files or directories,
 and which files the copy would fail on. The directory walk `os.walk`
 performs is likewise given, as the sequence of (directory, file names) pairs
 it yields. The yt-dlp download is reduced to its outcome.
 */
module Collector {
  import opened Results
  import opened Text
  import opened Paths
  import opened Sorting

  // ---------------------------------------------------------------------------
  // Classification
  // ---------------------------------------------------------------------------

  const AudioExtensions: set<string> := {".wav", ".mp3", ".flac", ".ogg", ".m4a", ".aac", ".wma"}
  const VideoExtensions: set<string> := {".mp4", ".mkv", ".avi", ".mov", ".webm", ".flv", ".wmv"}

  /** `is_audio`: the lower-cased suffix is an audio extension; a path without a suffix never is. */
  predicate IsAudio(p: string)
    ensures IsAudio(p) ==> |Suffix(p)| >= 2
  {
    Lower(Suffix(p)) in AudioExtensions
  }

  /** `is_video`: the lower-cased suffix is a video extension; a path without a suffix never is. */
  predicate IsVideo(p: string)
    ensures IsVideo(p) ==> |Suffix(p)| >= 2
  {
    Lower(Suffix(p)) in VideoExtensions
  }

  predicate IsMedia(p: string) {
    IsAudio(p) || IsVideo(p)
  }

  /** The two extension lists share nothing, so no path is both audio and video. */
  lemma NeverAudioAndVideo(p: string)
    ensures AudioExtensions !! VideoExtensions
    ensures !(IsAudio(p) && IsVideo(p))
  {
  }

  /** A non-letter matches only itself when case is ignored. */
  lemma NonLetterMatchesItself(c: char, d: char)
    requires LowerChar(c) == LowerChar(d) && !IsLetter(c)
    ensures d == c
  {
  }

  lemma LastIndexIgnoresCase(p: string, q: string, c: char)
    requires SameIgnoringCase(p, q) && !IsLetter(c)
    ensures LastIndexOf(p, c) == LastIndexOf(q, c)
  {
    var k := LastIndexOf(p, c);
    forall j | 0 <= j < |p| && p[j] != c ensures q[j] != c {
      if q[j] == c { NonLetterMatchesItself(c, p[j]); }
    }
    if k >= 0 {
      NonLetterMatchesItself(c, q[k]);
      LastIndexOfIs(q, c, k);
    }
  }

  lemma SliceIgnoresCase(p: string, q: string, lo: nat, hi: nat)
    requires SameIgnoringCase(p, q) && lo <= hi <= |p|
    ensures SameIgnoringCase(p[lo..hi], q[lo..hi])
  {
    forall i | 0 <= i < hi - lo ensures LowerChar(p[lo..hi][i]) == LowerChar(q[lo..hi][i]) {
      assert p[lo..hi][i] == p[lo + i] && q[lo..hi][i] == q[lo + i];
    }
  }

  /** Two spellings of one path in different letter cases have suffixes that agree up to case. */
  lemma SuffixIgnoresCase(p: string, q: string)
    requires SameIgnoringCase(p, q)
    ensures Lower(Suffix(p)) == Lower(Suffix(q))
  {
    var np := Name(p);
    var nq := Name(q);
    NameIgnoresCase(p, q);
    var s := SuffixStart(np);
    SuffixStartIgnoresCase(np, nq);
    SliceIgnoresCase(np, nq, s, |np|);
    LowerOfSame(np[s..], nq[s..]);
  }

  lemma NameIgnoresCase(p: string, q: string)
    requires SameIgnoringCase(p, q)
    ensures SameIgnoringCase(Name(p), Name(q))
  {
    assert !IsLetter('/');
    LastIndexIgnoresCase(p, q, '/');
    var k := LastIndexOf(p, '/') + 1;
    assert Name(p) == p[k..];
    assert Name(q) == q[k..];
    TailIgnoresCase(p, q, k);
  }

  lemma TailIgnoresCase(p: string, q: string, lo: nat)
    requires SameIgnoringCase(p, q) && lo <= |p|
    ensures SameIgnoringCase(p[lo..], q[lo..])
  {
    forall i | 0 <= i < |p| - lo ensures LowerChar(p[lo..][i]) == LowerChar(q[lo..][i]) {
      assert p[lo..][i] == p[lo + i] && q[lo..][i] == q[lo + i];
    }
  }

  lemma SuffixStartIgnoresCase(a: string, b: string)
    requires SameIgnoringCase(a, b)
    ensures SuffixStart(a) == SuffixStart(b)
  {
    LastIndexIgnoresCase(a, b, '.');
  }

  lemma LowerOfSame(a: string, b: string)
    requires SameIgnoringCase(a, b)
    ensures Lower(a) == Lower(b)
  {
  }

  /** Classification ignores letter case: "talk.MP3" is audio just as "talk.mp3" is. */
  lemma ClassificationIgnoresCase(p: string, q: string)
    requires SameIgnoringCase(p, q)
    ensures IsAudio(p) == IsAudio(q)
    ensures IsVideo(p) == IsVideo(q)
  {
    SuffixIgnoresCase(p, q);
  }

  // ---------------------------------------------------------------------------
  // YouTube links
  // ---------------------------------------------------------------------------

  const YoutubeDomains: seq<string> := ["youtube.com", "youtu.be", "youtube-nocookie.com"]

  /** `is_youtube_url`: one of the three domains appears anywhere in the string. */
  function IsYoutubeUrl(url: string): (r: bool)
    ensures r <==> exists k, i :: 0 <= k < |YoutubeDomains| && OccursAt(url, YoutubeDomains[k], i)
  {
    var r := Contains(url, "youtube.com") || Contains(url, "youtu.be") || Contains(url, "youtube-nocookie.com");
    assert r ==> exists k, i :: 0 <= k < |YoutubeDomains| && OccursAt(url, YoutubeDomains[k], i) by {
      if Contains(url, "youtube.com") {
        var i :| OccursAt(url, YoutubeDomains[0], i);
      } else if Contains(url, "youtu.be") {
        var i :| OccursAt(url, YoutubeDomains[1], i);
      } else if Contains(url, "youtube-nocookie.com") {
        var i :| OccursAt(url, YoutubeDomains[2], i);
      }
    }
    r
  }

  /** The test is a plain substring search: a domain embedded anywhere, even mid-word, is accepted. */
  lemma EmbeddedDomainIsYoutube(before: string, k: nat, after: string)
    requires k < |YoutubeDomains|
    ensures IsYoutubeUrl(before + YoutubeDomains[k] + after)
  {
    var url := before + YoutubeDomains[k] + after;
    assert url[|before|..|before| + |YoutubeDomains[k]|] == YoutubeDomains[k];
    assert OccursAt(url, YoutubeDomains[k], |before|);
  }

  // ---------------------------------------------------------------------------
  // Collecting
  // ---------------------------------------------------------------------------

  /** What a path names: a file (which a copy may or may not succeed on) or a directory. */
  datatype Entry = File(copyable: bool) | Directory

  /** The filesystem: every existing path and what it names. */
  type FileSystem = map<string, Entry>

  /** `os.path.exists` */
  predicate Exists(fs: FileSystem, p: string) {
    p in fs
  }

  /** `os.path.isfile` */
  predicate IsFile(fs: FileSystem, p: string) {
    p in fs && fs[p].File?
  }

  /** `os.path.isdir` */
  predicate IsDir(fs: FileSystem, p: string) {
    p in fs && fs[p].Directory?
  }

  /**
   `collect_local_file`: existence is checked first, then the format; a
   supported file is copied under its own name into `outputDir`. Copying a
   directory, or a file the copy fails on, raises.
   */
  function CollectLocalFile(filepath: string, outputDir: string, fs: FileSystem): (r: Result<string>)
    ensures !Exists(fs, filepath) ==> r == Err(FileNotFound(filepath))
    ensures Exists(fs, filepath) && !IsMedia(filepath) ==> r == Err(UnsupportedFormat(Suffix(filepath)))
    ensures r.Ok? <==> IsFile(fs, filepath) && IsMedia(filepath) && fs[filepath].copyable
    ensures r.Ok? ==> r.value == Join(outputDir, Name(filepath))
  {
    if !Exists(fs, filepath) then Err(FileNotFound(filepath))
    else if !IsMedia(filepath) then Err(UnsupportedFormat(Suffix(filepath)))
    else if !IsFile(fs, filepath) || !fs[filepath].copyable then Err(CopyFailed(filepath))
    else Ok(Join(outputDir, Name(filepath)))
  }

  /** An audio or video path has a suffix, so its file name is not empty. */
  lemma MediaHasSuffix(p: string)
    requires IsMedia(p)
    ensures |Suffix(p)| >= 2
    ensures |Name(p)| >= 2
  {
    var r := Suffix(p);
    assert |r| >= 2;
    assert EndsWith(Name(p), r);
  }

  /** A collected file keeps its name and therefore its classification. */
  lemma CollectedKeepsName(filepath: string, outputDir: string, fs: FileSystem)
    requires CollectLocalFile(filepath, outputDir, fs).Ok?
    ensures Name(CollectLocalFile(filepath, outputDir, fs).value) == Name(filepath)
    ensures Suffix(CollectLocalFile(filepath, outputDir, fs).value) == Suffix(filepath)
  {
    MediaHasSuffix(filepath);
    NameOfJoin(outputDir, Name(filepath));
  }

  /** The outcome of the yt-dlp download: a failure, or the title it reported (if any). */
  datatype Download = NotDownloaded | Downloaded(title: Option<string>)

  /** The extension of a downloaded file: ".wav" when only audio was asked for, ".mp4" otherwise. */
  function DownloadExtension(audioOnly: bool): string {
    if audioOnly then ".wav" else ".mp4"
  }

  /** The file name a download is reported under: its title, "unknown" when it has none, plus the extension. */
  function DownloadFileName(download: Download, audioOnly: bool): string
    requires download.Downloaded?
  {
    download.title.GetOr("unknown") + DownloadExtension(audioOnly)
  }

  /**
   `collect_from_youtube`: `<outputDir>/<title>.wav` for audio, `.mp4` for
   video; a missing title reads "unknown". A plain title keeps the file inside
   `outputDir`.
   */
  function CollectFromYoutube(url: string, outputDir: string, audioOnly: bool, download: Download): (r: Result<string>)
    ensures r.Ok? <==> download.Downloaded?
    ensures r.Err? ==> r.error == DownloadFailed(url)
    ensures r.Ok? ==> EndsWith(r.value, DownloadFileName(download, audioOnly))
    ensures r.Ok? && download.title.None? ==>
              StartsWith(r.value, outputDir) && Name(r.value) == "unknown" + DownloadExtension(audioOnly)
    ensures r.Ok? && download.title.Some? && download.title.value != "" && '/' !in download.title.value ==>
              StartsWith(r.value, outputDir) && Name(r.value) == download.title.value + DownloadExtension(audioOnly)
  {
    match download
    case NotDownloaded => Err(DownloadFailed(url))
    case Downloaded(title) =>
      var file := DownloadFileName(download, audioOnly);
      assert title.None? || (title.value != "" && '/' !in title.value) ==>
               StartsWith(Join(outputDir, file), outputDir) && Name(Join(outputDir, file)) == file by {
        if title.None? || (title.value != "" && '/' !in title.value) {
          PlainDownloadName(title.GetOr("unknown"), audioOnly);
          RelativeName(outputDir, file);
        }
      }
      Ok(Join(outputDir, file))
  }

  /** A plain title followed by a download extension is a plain file name. */
  lemma PlainDownloadName(title: string, audioOnly: bool)
    requires title != "" && '/' !in title
    ensures title + DownloadExtension(audioOnly) != "" && '/' !in title + DownloadExtension(audioOnly)
  {
    var ext := DownloadExtension(audioOnly);
    var file := title + ext;
    DownloadExtensions();
    forall m | 0 <= m < |file| ensures file[m] != '/' {
      if m < |title| {
        assert file[m] == title[m];
      } else {
        assert file[m] == ext[m - |title|];
      }
    }
  }

  /** A dot followed by at least one character, none of them a dot or a separator. */
  predicate PlainExtension(ext: string) {
    |ext| >= 2 && ext[0] == '.' && forall m :: 1 <= m < |ext| ==> ext[m] != '.' && ext[m] != '/'
  }

  /** A plain file name made of a non-empty stem and a plain extension keeps that extension after joining. */
  lemma SuffixOfJoinedFile(dir: string, stem: string, ext: string)
    requires stem != "" && '/' !in stem && PlainExtension(ext)
    ensures Suffix(Join(dir, stem + ext)) == ext
  {
    var file := stem + ext;
    NameOfJoin(dir, file);
    DotStartsSuffix(stem, ext);
    assert Suffix(Join(dir, file)) == file[SuffixStart(file)..];
    assert file[|stem|..] == ext;
  }

  lemma DotStartsSuffix(stem: string, ext: string)
    requires stem != "" && PlainExtension(ext)
    ensures SuffixStart(stem + ext) == |stem|
  {
    var file := stem + ext;
    assert file[|stem|] == ext[0] == '.';
    forall m | |stem| < m < |file| ensures file[m] != '.' {
      assert file[m] == ext[m - |stem|];
    }
    LastIndexOfIs(file, '.', |stem|);
  }

  lemma DownloadExtensions()
    ensures PlainExtension(".wav") && PlainExtension(".mp4")
    ensures Lower(".wav") == ".wav" && Lower(".mp4") == ".mp4"
  {
    LowerFixedPoint(".wav");
    LowerFixedPoint(".mp4");
  }

  /**
   A download with no title, or with a plain non-empty one, yields a file the
   collector classifies as requested.
   */
  lemma DownloadIsClassified(url: string, outputDir: string, audioOnly: bool, title: Option<string>)
    requires title.None? || (title.value != "" && '/' !in title.value)
    ensures var r := CollectFromYoutube(url, outputDir, audioOnly, Downloaded(title));
            && r.Ok?
            && (audioOnly ==> IsAudio(r.value))
            && (!audioOnly ==> IsVideo(r.value))
  {
    var ext := DownloadExtension(audioOnly);
    var stem := title.GetOr("unknown");
    var path := Join(outputDir, stem + ext);
    assert CollectFromYoutube(url, outputDir, audioOnly, Downloaded(title)) == Ok(path);
    assert stem != "" && '/' !in stem;
    DownloadExtensions();
    SuffixOfJoinedFile(outputDir, stem, ext);
  }

  // ---------------------------------------------------------------------------
  // Collecting a directory tree
  // ---------------------------------------------------------------------------

  /** One step of `os.walk`: a directory and the names of the files directly in it. */
  datatype WalkStep = WalkStep(root: string, files: seq<string>)

  /** `[os.path.join(root, f) for f in names]` */
  function JoinAll(root: string, names: seq<string>): (r: seq<string>)
    ensures |r| == |names|
    ensures forall k :: 0 <= k < |names| ==> r[k] == Join(root, names[k])
  {
    if |names| == 0 then [] else JoinAll(root, names[..|names| - 1]) + [Join(root, names[|names| - 1])]
  }

  /** The paths the walk visits: directory by directory, each directory's names in sorted order. */
  function VisitOrder(walk: seq<WalkStep>): seq<string> {
    if |walk| == 0 then []
    else
      var last := walk[|walk| - 1];
      VisitOrder(walk[..|walk| - 1]) + JoinAll(last.root, Sort(last.files))
  }

  /**
   What the loop body of `collect_from_directory` contributes for one visited
   path: the destination when the path is audio or video and collecting it
   succeeds, nothing otherwise (a failure is logged and skipped).
   */
  function Gathered(p: string, outputDir: string, fs: FileSystem): seq<string> {
    if IsMedia(p) then
      match CollectLocalFile(p, outputDir, fs)
      case Ok(dest) => [dest]
      case Err(_) => []
    else []
  }

  lemma GatheredShape(p: string, outputDir: string, fs: FileSystem)
    ensures !IsMedia(p) ==> Gathered(p, outputDir, fs) == []
    ensures forall d :: d in Gathered(p, outputDir, fs) ==>
              IsMedia(p) && CollectLocalFile(p, outputDir, fs) == Ok(d)
  {
  }

  /** The outputs of `take` over `paths`, concatenated in order. */
  function Harvest(paths: seq<string>, take: string -> seq<string>): seq<string> {
    if |paths| == 0 then []
    else Harvest(paths[..|paths| - 1], take) + take(paths[|paths| - 1])
  }

  /** Collecting a sequence of paths and collecting its two halves in turn give the same list. */
  lemma {:induction false} HarvestAppend(a: seq<string>, b: seq<string>, take: string -> seq<string>)
    ensures Harvest(a + b, take) == Harvest(a, take) + Harvest(b, take)
    decreases |b|
  {
    if |b| == 0 {
      assert a + b == a;
    } else {
      var b' := b[..|b| - 1];
      var last := b[|b| - 1];
      assert (a + b)[..|a + b| - 1] == a + b';
      assert (a + b)[|a + b| - 1] == last;
      HarvestAppend(a, b', take);
      assert Harvest(a + b, take) == Harvest(a, take) + Harvest(b', take) + take(last);
    }
  }

  lemma HarvestSnoc(a: seq<string>, p: string, take: string -> seq<string>)
    ensures Harvest(a + [p], take) == Harvest(a, take) + take(p)
  {
    assert (a + [p])[..|a|] == a;
  }

  /** A path that contributes nothing can be dropped from the walk. */
  lemma HarvestSkips(a: seq<string>, p: string, b: seq<string>, take: string -> seq<string>)
    requires take(p) == []
    ensures Harvest(a + [p] + b, take) == Harvest(a + b, take)
  {
    HarvestAppend(a + [p], b, take);
    HarvestAppend(a, [p], take);
    HarvestAppend(a, b, take);
    assert [p][..0] == [];
  }

  /** Everything harvested was contributed by one of the paths. */
  lemma {:induction false} HarvestFrom(paths: seq<string>, take: string -> seq<string>, d: string)
    requires d in Harvest(paths, take)
    ensures exists k :: 0 <= k < |paths| && d in take(paths[k])
    decreases |paths|
  {
    var init := paths[..|paths| - 1];
    if d in Harvest(init, take) {
      HarvestFrom(init, take, d);
      var k :| 0 <= k < |init| && d in take(init[k]);
      assert paths[k] == init[k];
    }
  }

  /** `collect_from_directory`'s contribution function for one destination and filesystem. */
  function GatherInto(outputDir: string, fs: FileSystem): string -> seq<string> {
    p => Gathered(p, outputDir, fs)
  }

  /** Files that are neither audio nor video are never attempted: dropping them from the walk changes nothing. */
  lemma NonMediaIgnored(a: seq<string>, p: string, b: seq<string>, outputDir: string, fs: FileSystem)
    requires !IsMedia(p)
    ensures Harvest(a + [p] + b, GatherInto(outputDir, fs)) == Harvest(a + b, GatherInto(outputDir, fs))
  {
    GatheredShape(p, outputDir, fs);
    HarvestSkips(a, p, b, GatherInto(outputDir, fs));
  }

  /** Every collected path is the destination of a visited media file that was collected successfully. */
  lemma OnlySuccessesCollected(paths: seq<string>, outputDir: string, fs: FileSystem, d: string)
    requires d in Harvest(paths, GatherInto(outputDir, fs))
    ensures exists k :: 0 <= k < |paths| && IsMedia(paths[k]) && CollectLocalFile(paths[k], outputDir, fs) == Ok(d)
  {
    HarvestFrom(paths, GatherInto(outputDir, fs), d);
    var k :| 0 <= k < |paths| && d in Gathered(paths[k], outputDir, fs);
    GatheredShape(paths[k], outputDir, fs);
  }

  lemma HarvestNextFile(before: seq<string>, root: string, names: seq<string>, j: nat, take: string -> seq<string>)
    requires j < |names|
    ensures Harvest(before + JoinAll(root, names[..j + 1]), take)
            == Harvest(before + JoinAll(root, names[..j]), take) + take(Join(root, names[j]))
  {
    assert names[..j + 1][..j] == names[..j];
    var prev := before + JoinAll(root, names[..j]);
    assert before + JoinAll(root, names[..j + 1]) == prev + [Join(root, names[j])];
    HarvestSnoc(prev, Join(root, names[j]), take);
  }

  lemma HarvestNextDirectory(walk: seq<WalkStep>, i: nat, take: string -> seq<string>)
    requires i < |walk|
    ensures VisitOrder(walk[..i + 1]) == VisitOrder(walk[..i]) + JoinAll(walk[i].root, Sort(walk[i].files))
  {
    assert walk[..i + 1][..i] == walk[..i];
  }

  /** The inner loop over one directory's (sorted) file names. */
  method CollectFiles(ghost before: seq<string>, root: string, names: seq<string>, take: string -> seq<string>,
                      start: seq<string>) returns (collected: seq<string>)
    requires start == Harvest(before, take)
    ensures collected == Harvest(before + JoinAll(root, names), take)
  {
    collected := start;
    assert before + JoinAll(root, names[..0]) == before;
    var j := 0;
    while j < |names|
      invariant 0 <= j <= |names|
      invariant collected == Harvest(before + JoinAll(root, names[..j]), take)
    {
      collected := collected + take(Join(root, names[j]));
      HarvestNextFile(before, root, names, j, take);
      j := j + 1;
    }
    assert names[..j] == names;
  }

  /**
   The walk loop of `collect_from_directory`, for any per-file step `take`:
   directory by directory, the file names in sorted order, each joined onto
   its directory and handed to `take`, the contributions concatenated.
   */
  method WalkAndCollect(walk: seq<WalkStep>, take: string -> seq<string>) returns (collected: seq<string>)
    ensures collected == Harvest(VisitOrder(walk), take)
  {
    collected := [];
    var i := 0;
    while i < |walk|
      invariant 0 <= i <= |walk|
      invariant collected == Harvest(VisitOrder(walk[..i]), take)
    {
      var step := walk[i];
      collected := CollectFiles(VisitOrder(walk[..i]), step.root, Sort(step.files), take, collected);
      HarvestNextDirectory(walk, i, take);
      i := i + 1;
    }
    assert walk[..i] == walk;
  }

  /**
   `collect_from_directory`: refuses a path that is not a directory, then
   collects every audio or video file the walk visits, in visit order,
   keeping the successes and skipping the failures.
   */
  method CollectFromDirectory(sourceDir: string, outputDir: string, fs: FileSystem, walk: seq<WalkStep>)
    returns (r: Result<seq<string>>)
    ensures !IsDir(fs, sourceDir) ==> r == Err(NotADirectory(sourceDir))
    ensures IsDir(fs, sourceDir) ==> r == Ok(Harvest(VisitOrder(walk), GatherInto(outputDir, fs)))
  {
    if !IsDir(fs, sourceDir) {
      return Err(NotADirectory(sourceDir));
    }
    var collected := WalkAndCollect(walk, GatherInto(outputDir, fs));
    return Ok(collected);
  }
}

=== FILE: conversation.dfy ===
/**
 The conversation backends of llm_providers.py: the bounded chat history both
 providers keep, the Groq completion call, the Monei server-sent-event stream
 decoder, and the factory that picks a provider by name.

 The remote services are not modelled: what they answered is a parameter. The
 JSON payload of a stream line is likewise abstract: `decode` stands for
 `json.loads` followed by reading the "event" and "data" fields.
 */
module Conversation {
  import opened Results
  import opened Text

  // ---------------------------------------------------------------------------
  // Chat history
  // ---------------------------------------------------------------------------

  datatype Role = User | Assistant
  datatype Turn = Turn(role: Role, content: string)

  /** The number of entries kept once the user's turn has been added. */
  const HistoryLimit: nat := 20

  /** `xs` ends with `ys`. */
  predicate IsSuffix<T(==)>(ys: seq<T>, xs: seq<T>) {
    |ys| <= |xs| && xs[|xs| - |ys|..] == ys
  }

  /** `chat_history[:] = chat_history[-20:]` when the history has grown past the limit. */
  function Window(history: seq<Turn>): seq<Turn> {
    if |history| > HistoryLimit then history[|history| - HistoryLimit..] else history
  }

  /** The history once the user's turn is appended and the oldest entries are dropped. */
  function WithUserTurn(history: seq<Turn>, userText: string): (h: seq<Turn>)
    ensures |h| == Min(|history| + 1, HistoryLimit)
    ensures IsSuffix(h, history + [Turn(User, userText)])
  {
    Window(history + [Turn(User, userText)])
  }

  /** The outcome of one `ask`: the reply or the error raised, and the history left behind. */
  datatype Exchange = Exchange(reply: Result<string>, history: seq<Turn>)

  /** On success the reply becomes an assistant turn; a failure leaves the history as it was after the user's turn. */
  function Conclude(pending: seq<Turn>, reply: Result<string>): Exchange {
    match reply
    case Ok(text) => Exchange(reply, pending + [Turn(Assistant, text)])
    case Err(_) => Exchange(reply, pending)
  }

  /** What every `ask` promises about the history it leaves behind. */
  predicate KeepsWindow(history: seq<Turn>, userText: string, e: Exchange) {
    var answered := if e.reply.Ok? then 1 else 0;
    && |e.history| == Min(|history| + 1, HistoryLimit) + answered
    && IsSuffix(e.history[..|e.history| - answered], history + [Turn(User, userText)])
    && (e.reply.Ok? ==> e.history[|e.history| - 1] == Turn(Assistant, e.reply.value))
  }

  lemma ConcludeKeepsWindow(history: seq<Turn>, userText: string, reply: Result<string>)
    ensures KeepsWindow(history, userText, Conclude(WithUserTurn(history, userText), reply))
  {
    var pending := WithUserTurn(history, userText);
    var e := Conclude(pending, reply);
    if reply.Ok? {
      assert e.history[..|e.history| - 1] == pending;
    } else {
      assert e.history[..|e.history|] == pending;
    }
  }

  // ---------------------------------------------------------------------------
  // Groq
  // ---------------------------------------------------------------------------

  /** What the chat-completion call produced: nothing (it raised), or the first choice's content. */
  datatype Completion = CompletionFailed | Completed(content: Option<string>)

  /** `(completion.choices[0].message.content or "").strip()`, or the error the call raised. */
  function GroqReply(completion: Completion): (r: Result<string>)
    ensures completion.CompletionFailed? ==> r == Err(RequestFailed)
    ensures completion.Completed? ==> r == Ok(Strip(completion.content.GetOr("")))
    ensures r.Ok? ==> Strip(r.value) == r.value
  {
    match completion
    case CompletionFailed => Err(RequestFailed)
    case Completed(content) =>
      var text := content.GetOr("");
      assert Strip(Strip(text)) == Strip(text) by { StripIdempotent(text); }
      Ok(Strip(text))
  }

  /** `GroqProvider.ask`: the reply is the completion's content, stripped, with a missing content read as "". */
  function GroqAsk(userText: string, history: seq<Turn>, completion: Completion): (e: Exchange)
    ensures KeepsWindow(history, userText, e)
    ensures |e.history| <= HistoryLimit + 1
    ensures e.reply.Ok? <==> completion.Completed?
    ensures e.reply.Err? ==> e.reply.error == RequestFailed
    ensures completion.Completed? ==> e.reply == Ok(Strip(completion.content.GetOr("")))
    ensures e.reply.Ok? ==> Strip(e.reply.value) == e.reply.value
    ensures e.reply.Ok? ==> |e.history| >= 2 && e.history[|e.history| - 2] == Turn(User, userText)
  {
    var reply := GroqReply(completion);
    ConcludeKeepsWindow(history, userText, reply);
    Conclude(WithUserTurn(history, userText), reply)
  }

  // ---------------------------------------------------------------------------
  // Monei: the event stream
  // ---------------------------------------------------------------------------

  /** A decoded stream payload; an absent "event" or "data" field reads as "". */
  datatype Event = Event(kind: string, data: string)

  const DataPrefix: string := "data: "

  /** The text after `data: ` on a data line. */
  function Payload(line: string): string
    requires StartsWith(line, DataPrefix)
  {
    line[|DataPrefix|..]
  }

  /** The text read so far becomes the reply, unless it is empty. */
  function Finish(text: string): (r: Result<string>)
    ensures r.Ok? <==> text != ""
  {
    if text == "" then Err(EmptyResponse) else Ok(text)
  }

  /**
   The loop of `_parse_sse` from the point where `text` has been read: lines
   without the data prefix are skipped, a token event extends the text, a
   complete event replaces it with its stripped data and ends the loop, and any
   other event is ignored. A payload that does not decode aborts the loop.
   */
  function ReadEvents(lines: seq<string>, decode: string -> Option<Event>, text: string): (r: Result<string>)
    ensures r.Ok? ==> r.value != ""
    ensures r.Err? ==> r.error == EmptyResponse || r.error.MalformedEvent?
    decreases |lines|
  {
    if |lines| == 0 then Finish(text)
    else if !StartsWith(lines[0], DataPrefix) then ReadEvents(lines[1..], decode, text)
    else
      match decode(Payload(lines[0]))
      case None => Err(MalformedEvent(Payload(lines[0])))
      case Some(ev) =>
        if ev.kind == "complete" then Finish(Strip(ev.data))
        else if ev.kind == "token" then ReadEvents(lines[1..], decode, text + ev.data)
        else ReadEvents(lines[1..], decode, text)
  }

  /** `MoneiProvider._parse_sse` */
  function ParseSse(lines: seq<string>, decode: string -> Option<Event>): (r: Result<string>)
    ensures r.Ok? ==> r.value != ""
    ensures |lines| == 0 ==> r == Err(EmptyResponse)
  {
    ReadEvents(lines, decode, "")
  }

  /** The line is a data line whose payload decodes to an event that does not end the stream. */
  predicate Continues(line: string, decode: string -> Option<Event>) {
    !StartsWith(line, DataPrefix)
    || (decode(Payload(line)).Some? && decode(Payload(line)).value.kind != "complete")
  }

  /** The line is a data line carrying a complete event with the given data. */
  predicate Completes(line: string, decode: string -> Option<Event>, data: string) {
    StartsWith(line, DataPrefix) && decode(Payload(line)) == Some(Event("complete", data))
  }

  /** Reference reading of a stream with no complete event: the token payloads, in order. */
  function TokenText(lines: seq<string>, decode: string -> Option<Event>): string {
    if |lines| == 0 then ""
    else
      var own :=
        if StartsWith(lines[0], DataPrefix) && decode(Payload(lines[0])).Some?
           && decode(Payload(lines[0])).value.kind == "token"
        then decode(Payload(lines[0])).value.data
        else "";
      own + TokenText(lines[1..], decode)
  }

  lemma {:induction false} ReadTokens(lines: seq<string>, decode: string -> Option<Event>, text: string)
    requires forall i :: 0 <= i < |lines| ==> Continues(lines[i], decode)
    ensures ReadEvents(lines, decode, text) == Finish(text + TokenText(lines, decode))
    decreases |lines|
  {
    if |lines| == 0 {
      assert text + "" == text;
    } else {
      assert Continues(lines[0], decode);
      var rest := lines[1..];
      assert forall i :: 0 <= i < |rest| ==> Continues(rest[i], decode) by {
        forall i | 0 <= i < |rest| ensures Continues(rest[i], decode) {
          assert rest[i] == lines[i + 1];
        }
      }
      if StartsWith(lines[0], DataPrefix) && decode(Payload(lines[0])).value.kind == "token" {
        var d := decode(Payload(lines[0])).value.data;
        ReadTokens(rest, decode, text + d);
        assert text + d + TokenText(rest, decode) == text + (d + TokenText(rest, decode));
      } else {
        ReadTokens(rest, decode, text);
        assert TokenText(lines, decode) == "" + TokenText(rest, decode) == TokenText(rest, decode);
      }
    }
  }

  /** Without a complete event the reply is every token payload concatenated; other events contribute nothing. */
  lemma TokensConcatenate(lines: seq<string>, decode: string -> Option<Event>)
    requires forall i :: 0 <= i < |lines| ==> Continues(lines[i], decode)
    ensures ParseSse(lines, decode) == Finish(TokenText(lines, decode))
  {
    ReadTokens(lines, decode, "");
    assert "" + TokenText(lines, decode) == TokenText(lines, decode);
  }

  lemma {:induction false} ReadUpToComplete(a: seq<string>, c: string, b: seq<string>,
                                           decode: string -> Option<Event>, data: string, text: string)
    requires forall i :: 0 <= i < |a| ==> Continues(a[i], decode)
    requires Completes(c, decode, data)
    ensures ReadEvents(a + [c] + b, decode, text) == Finish(Strip(data))
    decreases |a|
  {
    var s := a + [c] + b;
    if |a| == 0 {
      assert s[0] == c && s[1..] == b;
    } else {
      assert s[0] == a[0] && s[1..] == a[1..] + [c] + b;
      assert Continues(a[0], decode);
      assert forall i :: 0 <= i < |a| - 1 ==> Continues(a[1..][i], decode) by {
        forall i | 0 <= i < |a| - 1 ensures Continues(a[1..][i], decode) {
          assert a[1..][i] == a[i + 1];
        }
      }
      if StartsWith(a[0], DataPrefix) && decode(Payload(a[0])).value.kind == "token" {
        ReadUpToComplete(a[1..], c, b, decode, data, text + decode(Payload(a[0])).value.data);
      } else {
        ReadUpToComplete(a[1..], c, b, decode, data, text);
      }
    }
  }

  /**
   The first complete event decides the reply: its stripped data, whatever
   tokens came before and whatever lines follow. Blank data is an empty response.
   */
  lemma CompleteReplaces(a: seq<string>, c: string, b: seq<string>,
                         decode: string -> Option<Event>, data: string)
    requires forall i :: 0 <= i < |a| ==> Continues(a[i], decode)
    requires Completes(c, decode, data)
    ensures ParseSse(a + [c] + b, decode) == Finish(Strip(data))
    ensures AllSpace(data) ==> ParseSse(a + [c] + b, decode) == Err(EmptyResponse)
  {
    ReadUpToComplete(a, c, b, decode, data, "");
    StripEmptyIffBlank(data);
  }

  /** The line is a data line whose payload does not decode, so `json.loads` raises on it. */
  predicate Undecodable(line: string, decode: string -> Option<Event>) {
    StartsWith(line, DataPrefix) && decode(Payload(line)).None?
  }

  lemma {:induction false} ReadUpToMalformed(a: seq<string>, bad: string, b: seq<string>,
                                            decode: string -> Option<Event>, text: string)
    requires forall i :: 0 <= i < |a| ==> Continues(a[i], decode)
    requires Undecodable(bad, decode)
    ensures ReadEvents(a + [bad] + b, decode, text) == Err(MalformedEvent(Payload(bad)))
    decreases |a|
  {
    var s := a + [bad] + b;
    if |a| == 0 {
      assert s[0] == bad;
    } else {
      assert s[0] == a[0] && s[1..] == a[1..] + [bad] + b;
      assert Continues(a[0], decode);
      assert forall i :: 0 <= i < |a| - 1 ==> Continues(a[1..][i], decode) by {
        forall i | 0 <= i < |a| - 1 ensures Continues(a[1..][i], decode) {
          assert a[1..][i] == a[i + 1];
        }
      }
      if StartsWith(a[0], DataPrefix) && decode(Payload(a[0])).value.kind == "token" {
        ReadUpToMalformed(a[1..], bad, b, decode, text + decode(Payload(a[0])).value.data);
      } else {
        ReadUpToMalformed(a[1..], bad, b, decode, text);
      }
    }
  }

  /**
   A payload that does not decode, reached before any complete event, fails the
   whole reply with that payload, whatever tokens came before and lines follow.
   */
  lemma MalformedAborts(a: seq<string>, bad: string, b: seq<string>, decode: string -> Option<Event>)
    requires forall i :: 0 <= i < |a| ==> Continues(a[i], decode)
    requires Undecodable(bad, decode)
    ensures ParseSse(a + [bad] + b, decode) == Err(MalformedEvent(Payload(bad)))
  {
    ReadUpToMalformed(a, bad, b, decode, "");
  }

  lemma {:induction false} ReadStopsAtComplete(a: seq<string>, c: string, b1: seq<string>, b2: seq<string>,
                                              decode: string -> Option<Event>, data: string, text: string)
    requires Completes(c, decode, data)
    ensures ReadEvents(a + [c] + b1, decode, text) == ReadEvents(a + [c] + b2, decode, text)
    decreases |a|
  {
    var s1 := a + [c] + b1;
    var s2 := a + [c] + b2;
    if |a| == 0 {
      assert s1[0] == c == s2[0];
    } else {
      assert s1[0] == a[0] == s2[0];
      assert s1[1..] == a[1..] + [c] + b1;
      assert s2[1..] == a[1..] + [c] + b2;
      if StartsWith(a[0], DataPrefix) && decode(Payload(a[0])).Some? {
        var ev := decode(Payload(a[0])).value;
        ReadStopsAtComplete(a[1..], c, b1, b2, decode, data, text + ev.data);
        ReadStopsAtComplete(a[1..], c, b1, b2, decode, data, text);
      } else {
        ReadStopsAtComplete(a[1..], c, b1, b2, decode, data, text);
      }
    }
  }

  /** Every line after a complete event is ignored, even one that would not decode. */
  lemma NothingAfterComplete(a: seq<string>, c: string, b1: seq<string>, b2: seq<string>,
                             decode: string -> Option<Event>, data: string)
    requires Completes(c, decode, data)
    ensures ParseSse(a + [c] + b1, decode) == ParseSse(a + [c] + b2, decode)
  {
    ReadStopsAtComplete(a, c, b1, b2, decode, data, "");
  }

  lemma {:induction false} ReadSkipsNonData(a: seq<string>, line: string, b: seq<string>,
                                           decode: string -> Option<Event>, text: string)
    requires !StartsWith(line, DataPrefix)
    ensures ReadEvents(a + [line] + b, decode, text) == ReadEvents(a + b, decode, text)
    decreases |a|
  {
    var s := a + [line] + b;
    if |a| == 0 {
      assert s[0] == line && s[1..] == b && a + b == b;
    } else {
      assert s[0] == a[0] == (a + b)[0];
      assert s[1..] == a[1..] + [line] + b;
      assert (a + b)[1..] == a[1..] + b;
      if StartsWith(a[0], DataPrefix) && decode(Payload(a[0])).Some? {
        var ev := decode(Payload(a[0])).value;
        ReadSkipsNonData(a[1..], line, b, decode, text + ev.data);
        ReadSkipsNonData(a[1..], line, b, decode, text);
      } else {
        ReadSkipsNonData(a[1..], line, b, decode, text);
      }
    }
  }

  /** A line without the `data: ` prefix (the empty line included) can be dropped without changing the reply. */
  lemma NonDataLinesIgnored(a: seq<string>, line: string, b: seq<string>, decode: string -> Option<Event>)
    requires !StartsWith(line, DataPrefix)
    ensures ParseSse(a + [line] + b, decode) == ParseSse(a + b, decode)
  {
    ReadSkipsNonData(a, line, b, decode, "");
  }

  // ---------------------------------------------------------------------------
  // Monei: ask
  // ---------------------------------------------------------------------------

  /** The HTTP answer to the streaming request: refused (an error status or no connection), or its lines. */
  datatype StreamResponse = Refused | Streamed(lines: seq<string>)

  /** `MoneiProvider.ask` */
  function MoneiAsk(userText: string, history: seq<Turn>, response: StreamResponse,
                    decode: string -> Option<Event>): (e: Exchange)
    ensures KeepsWindow(history, userText, e)
    ensures |e.history| <= HistoryLimit + 1
    ensures response.Refused? ==> e.reply == Err(RequestFailed)
    ensures response.Streamed? ==> e.reply == ParseSse(response.lines, decode)
    ensures e.reply.Ok? ==> e.reply.value != ""
    ensures e.reply.Ok? ==> |e.history| >= 2 && e.history[|e.history| - 2] == Turn(User, userText)
  {
    var reply := if response.Refused? then Err(RequestFailed) else ParseSse(response.lines, decode);
    ConcludeKeepsWindow(history, userText, reply);
    Conclude(WithUserTurn(history, userText), reply)
  }

  /** The cap is applied before the reply is added, so a long conversation holds 21 entries, not 20. */
  lemma AnsweredHistoryReaches21(userText: string, history: seq<Turn>, content: string)
    requires |history| >= HistoryLimit
    ensures |GroqAsk(userText, history, Completed(Some(content))).history| == HistoryLimit + 1
  {
  }

  /** The oldest entries go first: after an answered turn, the history is the latest entries in their order. */
  lemma OldestDroppedFirst(history: seq<Turn>, userText: string, e: Exchange)
    requires KeepsWindow(history, userText, e) && e.reply.Ok?
    requires |history| >= HistoryLimit
    ensures e.history == history[|history| - HistoryLimit + 1..] + [Turn(User, userText), Turn(Assistant, e.reply.value)]
  {
    var full := history + [Turn(User, userText)];
    var kept := e.history[..|e.history| - 1];
    assert kept == full[|full| - HistoryLimit..];
    assert full[|full| - HistoryLimit..] == history[|history| - HistoryLimit + 1..] + [Turn(User, userText)];
    assert e.history == kept + [e.history[|e.history| - 1]];
  }

  // ---------------------------------------------------------------------------
  // Provider selection
  // ---------------------------------------------------------------------------

  datatype ProviderKind = Groq | Monei

  /** `os.getenv("LLM_PROVIDER", "monei").lower().strip()`: an unset variable reads as "monei", an empty one stays "". */
  function ProviderName(setting: Option<string>): string {
    Strip(Lower(setting.GetOr("monei")))
  }

  /** `create_provider`: look the name up, then let the chosen provider insist on its credential. */
  function CreateProvider(setting: Option<string>, groqKey: string, moneiKey: string): (r: Result<ProviderKind>)
    ensures r == Ok(Groq) <==> ProviderName(setting) == "groq" && groqKey != ""
    ensures r == Ok(Monei) <==> ProviderName(setting) == "monei" && moneiKey != ""
    ensures ProviderName(setting) !in {"groq", "monei"} ==> r == Err(UnknownProvider(ProviderName(setting)))
    ensures ProviderName(setting) == "groq" && groqKey == "" ==> r == Err(MissingCredential("GROQ_API_KEY"))
    ensures ProviderName(setting) == "monei" && moneiKey == "" ==> r == Err(MissingCredential("MONEI_API_KEY"))
  {
    var name := ProviderName(setting);
    if name == "groq" then
      if groqKey == "" then Err(MissingCredential("GROQ_API_KEY")) else Ok(Groq)
    else if name == "monei" then
      if moneiKey == "" then Err(MissingCredential("MONEI_API_KEY")) else Ok(Monei)
    else Err(UnknownProvider(name))
  }

  /** Provider names are matched regardless of letter case. */
  lemma ProviderNameIgnoresCase(a: string, b: string)
    requires SameIgnoringCase(a, b)
    ensures ProviderName(Some(a)) == ProviderName(Some(b))
  {
    assert Lower(a) == Lower(b);
  }

  /** Surrounding whitespace is stripped after lower-casing: " Groq " names the Groq provider. */
  lemma PaddedProviderName(groqKey: string, moneiKey: string)
    requires groqKey != ""
    ensures ProviderName(Some(" Groq ")) == "groq"
    ensures CreateProvider(Some(" Groq "), groqKey, moneiKey) == Ok(Groq)
  {
    assert Lower(" Groq ") == " " + "groq" + " " by {
      assert LowerChar('G') == 'g';
    }
    StripOnePadding("groq");
  }

  lemma UnsetSelectsMonei(groqKey: string, moneiKey: string)
    requires moneiKey != ""
    ensures CreateProvider(None, groqKey, moneiKey) == Ok(Monei)
  {
    LowerFixedPoint("monei");
    StripFixedPoint("monei");
  }
}

=== FILE: paths.dfy ===
/**
 POSIX path handling as the pipeline uses it: `os.path.join`, the `name`,
 `suffix` and `stem` of a `pathlib.Path`, and `str.rsplit(".", 1)[0]`.
 Paths are plain strings with `/` as the separator.
 */
module Paths {
  import opened Text

  /** `s.rfind(c)`: the position of the last `c` in `s`, or -1 when there is none. */
  function LastIndexOf(s: string, c: char): (k: int)
    ensures -1 <= k < |s|
    ensures k >= 0 ==> s[k] == c
    ensures forall j :: k < j < |s| ==> s[j] != c
  {
    LastIndexBelow(s, c, |s|)
  }

  /** The last position below `n` that carries `c`, scanning down from `n`. */
  function LastIndexBelow(s: string, c: char, n: nat): (k: int)
    requires n <= |s|
    ensures -1 <= k < n
    ensures k >= 0 ==> s[k] == c
    ensures forall j :: k < j < n ==> s[j] != c
  {
    if n == 0 then -1
    else if s[n - 1] == c then n - 1
    else LastIndexBelow(s, c, n - 1)
  }

  /** The last occurrence is the only position that carries `c` with no `c` after it. */
  lemma LastIndexOfIs(s: string, c: char, j: int)
    requires 0 <= j < |s| && s[j] == c
    requires forall m :: j < m < |s| ==> s[m] != c
    ensures LastIndexOf(s, c) == j
  {
  }

  /** `Path(p).name`: everything after the last separator. */
  function Name(p: string): (r: string)
    ensures forall m :: 0 <= m < |r| ==> r[m] != '/'
    ensures EndsWith(p, r)
  {
    p[LastIndexOf(p, '/') + 1..]
  }

  /** Where the suffix starts in a name: the last dot, unless it leads or ends the name. */
  function SuffixStart(name: string): (i: int)
  {
    var i := LastIndexOf(name, '.');
    if 0 < i < |name| - 1 then i else |name|
  }

  /** `Path(p).suffix`: the final dot-extension of the name, or "" when there is none. */
  function Suffix(p: string): (r: string)
    ensures r == "" || (|r| >= 2 && r[0] == '.' && forall m :: 1 <= m < |r| ==> r[m] != '.')
    ensures EndsWith(Name(p), r)
  {
    var name := Name(p);
    var r := name[SuffixStart(name)..];
    assert forall m :: 1 <= m < |r| ==> r[m] == name[SuffixStart(name) + m];
    r
  }

  /** `Path(p).stem`: the name without its suffix. */
  function Stem(p: string): string {
    var name := Name(p);
    name[..SuffixStart(name)]
  }

  /** A name splits into its stem followed by its suffix. */
  lemma NameIsStemPlusSuffix(p: string)
    ensures Name(p) == Stem(p) + Suffix(p)
  {
  }

  /** `os.path.join(a, b)` for POSIX paths. */
  function Join(a: string, b: string): (r: string)
    ensures EndsWith(r, b)
    ensures !StartsWith(b, "/") ==> StartsWith(r, a)
  {
    if StartsWith(b, "/") then b
    else if a == "" || EndsWith(a, "/") then a + b
    else a + "/" + b
  }

  /** Joining a plain file name onto a directory gives a path whose name is that file name. */
  lemma NameOfJoin(dir: string, file: string)
    requires file != "" && '/' !in file
    ensures Name(Join(dir, file)) == file
  {
    var r := Join(dir, file);
    if r == file {
      assert forall m :: 0 <= m < |r| ==> r[m] != '/';
    } else {
      var k := |r| - |file| - 1;
      assert r[k] == '/';
      assert forall m :: k < m < |r| ==> r[m] == file[m - k - 1];
      LastIndexOfIs(r, '/', k);
    }
  }

  /** A non-empty name without a separator is relative: `Join` keeps the directory in front of it. */
  lemma RelativeName(dir: string, name: string)
    requires name != "" && '/' !in name
    ensures StartsWith(Join(dir, name), dir)
    ensures Name(Join(dir, name)) == name
  {
    assert name[0] != '/';
    NameOfJoin(dir, name);
  }

  /** Two relative names joined onto the same directory give the same path only if they are equal. */
  lemma JoinInjective(dir: string, a: string, b: string)
    requires !StartsWith(a, "/") && !StartsWith(b, "/")
    requires Join(dir, a) == Join(dir, b)
    ensures a == b
  {
    var ra := Join(dir, a);
    assert ra[|ra| - |a|..] == a;
    assert Join(dir, b)[|ra| - |b|..] == b;
  }

  /** `s.rsplit(".", 1)[0]`: everything before the last dot of the whole string. */
  function BeforeLastDot(s: string): (r: string)
    ensures StartsWith(s, r)
    ensures r == s || (s[|r|] == '.' && forall m :: |r| < m < |s| ==> s[m] != '.')
  {
    var i := LastIndexOf(s, '.');
    if i < 0 then s else s[..i]
  }

  lemma SplitAt(s: string, j: nat)
    requires j <= |s|
    ensures s[..j] + s[j..] == s
  {
  }

  /**
   When the file name itself has a suffix, the last dot of the whole path is the
   suffix's dot, so cutting at it removes exactly the suffix and stays inside
   the file's directory.
   */
  lemma BeforeLastDotDropsSuffix(p: string)
    requires Suffix(p) != ""
    ensures BeforeLastDot(p) + Suffix(p) == p
    ensures EndsWith(BeforeLastDot(p), Stem(p))
  {
    var j := |p| - |Suffix(p)|;
    CutAtSuffixDot(p);
    SuffixIsTail(p);
    SplitAt(p, j);
    StemBeforeSuffix(p);
  }

  /** The stem sits immediately before the suffix in the path. */
  lemma StemBeforeSuffix(p: string)
    ensures EndsWith(p[..|p| - |Suffix(p)|], Stem(p))
  {
    NameIsStemPlusSuffix(p);
    var name := Name(p);
    var stem := Stem(p);
    assert p[|p| - |name|..] == name;
    assert p[..|p| - |Suffix(p)|][|p| - |name|..] == name[..|stem|] == stem;
  }

  lemma CutAtSuffixDot(p: string)
    requires Suffix(p) != ""
    ensures BeforeLastDot(p) == p[..|p| - |Suffix(p)|]
  {
    var r := Suffix(p);
    var j := |p| - |r|;
    SuffixIsTail(p);
    DotTail(p, r);
    LastIndexOfIs(p, '.', j);
    assert BeforeLastDot(p) == p[..j];
  }

  /** A tail that starts with the only dot in it puts the last dot of the whole string at its start. */
  lemma DotTail(p: string, r: string)
    requires |r| >= 1 && |r| <= |p| && r[0] == '.' && forall m :: 1 <= m < |r| ==> r[m] != '.'
    requires p[|p| - |r|..] == r
    ensures p[|p| - |r|] == '.'
    ensures forall m :: |p| - |r| < m < |p| ==> p[m] != '.'
  {
    var j := |p| - |r|;
    assert p[j] == r[0];
    forall m | j < m < |p| ensures p[m] != '.' {
      assert p[m] == r[m - j];
    }
  }

  /** The suffix of a path is literally its last characters. */
  lemma SuffixIsTail(p: string)
    ensures p[|p| - |Suffix(p)|..] == Suffix(p)
  {
    TailOfTail(p, Name(p), Suffix(p));
  }

  lemma TailOfTail<T>(p: seq<T>, mid: seq<T>, r: seq<T>)
    requires |mid| <= |p| && p[|p| - |mid|..] == mid
    requires |r| <= |mid| && mid[|mid| - |r|..] == r
    ensures p[|p| - |r|..] == r
  {
    assert p[|p| - |r|..] == p[|p| - |mid|..][|mid| - |r|..];
  }

  /** A name appended to a directory prefix (empty, or ending in a separator) is the name of the result. */
  lemma NameAfterSeparator(dir: string, name: string)
    requires dir == "" || dir[|dir| - 1] == '/'
    requires forall m :: 0 <= m < |name| ==> name[m] != '/'
    ensures Name(dir + name) == name
  {
    var p := dir + name;
    if dir != "" {
      forall m | |dir| <= m < |p| ensures p[m] != '/' {
        assert p[m] == name[m - |dir|];
      }
      LastIndexOfIs(p, '/', |dir| - 1);
      assert p[|dir|..] == name;
    } else {
      assert p == name;
    }
  }

  /** Everything before the name: empty, or the directory part up to and including the last separator. */
  function DirPrefix(p: string): string {
    p[..|p| - |Name(p)|]
  }

  /** A path is its directory prefix, which is empty or ends in a separator, followed by its name. */
  lemma DirectoryThenName(p: string)
    ensures DirPrefix(p) == "" || DirPrefix(p)[|DirPrefix(p)| - 1] == '/'
    ensures p == DirPrefix(p) + Name(p)
  {
    var k := LastIndexOf(p, '/');
    assert |p| - |Name(p)| == k + 1;
    SplitAt(p, k + 1);
  }

  /** Without its suffix, a path is its directory prefix followed by its stem. */
  lemma DirectoryThenStem(p: string)
    ensures p[..|p| - |Suffix(p)|] == DirPrefix(p) + Stem(p)
  {
    DirectoryThenName(p);
    NameIsStemPlusSuffix(p);
    CutTail(p, DirPrefix(p), Stem(p), Suffix(p));
  }

  lemma CutTail<T>(p: seq<T>, d: seq<T>, s: seq<T>, x: seq<T>)
    requires p == d + (s + x)
    ensures p[..|p| - |x|] == d + s
  {
    assert p == (d + s) + x;
  }

  lemma StemHasNoSeparator(p: string)
    ensures forall m :: 0 <= m < |Stem(p)| ==> Stem(p)[m] != '/'
  {
    NameIsStemPlusSuffix(p);
    assert forall m :: 0 <= m < |Stem(p)| ==> Stem(p)[m] == Name(p)[m];
  }

  lemma NameAfterSeparatorParts(dir: string, stem: string, ending: string)
    requires dir == "" || dir[|dir| - 1] == '/'
    requires forall m :: 0 <= m < |stem| ==> stem[m] != '/'
    requires forall m :: 0 <= m < |ending| ==> ending[m] != '/'
    ensures Name(dir + stem + ending) == stem + ending
  {
    var file := stem + ending;
    forall m | 0 <= m < |file| ensures file[m] != '/' {
      if m < |stem| { assert file[m] == stem[m]; } else { assert file[m] == ending[m - |stem|]; }
    }
    assert dir + stem + ending == dir + file;
    NameAfterSeparator(dir, file);
  }

  /**
   Replacing a path's suffix by another plain ending keeps the file in the same
   directory: the new name is the old stem followed by the ending.
   */
  lemma ReplaceSuffixKeepsDirectory(p: string, ending: string)
    requires forall m :: 0 <= m < |ending| ==> ending[m] != '/'
    ensures Name(p[..|p| - |Suffix(p)|] + ending) == Stem(p) + ending
  {
    DirectoryThenName(p);
    DirectoryThenStem(p);
    StemHasNoSeparator(p);
    NameAfterSeparatorParts(DirPrefix(p), Stem(p), ending);
  }
}

=== FILE: pipeline.dfy ===
/**
 The `SpeechPipeline` of pipeline.py: the two accumulators it keeps (the
 collected files and the transcription records), how collecting and
 transcribing extend them, the naming rule for generated speech files, which
 transcriptions are re-synthesised, and the summary.

 A pipeline is an immutable record here; every operation that mutates the
 Python object returns the next record instead. The environment each
 operation reads (filesystem, directory walk, download, tools, service
 replies, the listing of the speech directory, the API key variable) is a
 parameter.
 */
module Pipeline {
  import opened Results
  import opened Text
  import opened Paths
  import opened Collector
  import opened Processor
  import opened Synthesis

  datatype SpeechPipeline = SpeechPipeline(
    outputDir: string,
    whisperModel: string,
    collectedFiles: seq<string>,
    transcriptions: seq<Outcome>)

  /** The result of an operation together with the pipeline it leaves behind. */
  datatype Step<T> = Step(result: Result<T>, state: SpeechPipeline)

  function CollectDir(outputDir: string): string { Join(outputDir, "collected") }
  function TranscriptionDir(outputDir: string): string { Join(outputDir, "transcriptions") }
  function TtsDir(outputDir: string): string { Join(outputDir, "tts_output") }

  /** `SpeechPipeline(output_dir, whisper_model)`: nothing collected, nothing transcribed. */
  function NewPipeline(outputDir: string, whisperModel: string): (p: SpeechPipeline)
    ensures p.outputDir == outputDir && p.whisperModel == whisperModel
    ensures |GetSummary(p).files| == 0 && GetSummary(p).transcriptionCount == 0
  {
    SpeechPipeline(outputDir, whisperModel, [], [])
  }

  lemma DistinctSubdirectory(dir: string, a: string, b: string)
    requires a != "" && b != "" && a[0] != '/' && b[0] != '/' && a != b
    ensures Join(dir, a) != Join(dir, b)
  {
    if Join(dir, a) == Join(dir, b) {
      JoinInjective(dir, a, b);
    }
  }

  /** The four working directories of a pipeline are four different paths. */
  lemma SubdirectoriesDistinct(outputDir: string)
    ensures CollectDir(outputDir) != ExtractedAudioDir(outputDir)
    ensures CollectDir(outputDir) != TranscriptionDir(outputDir)
    ensures CollectDir(outputDir) != TtsDir(outputDir)
    ensures ExtractedAudioDir(outputDir) != TranscriptionDir(outputDir)
    ensures ExtractedAudioDir(outputDir) != TtsDir(outputDir)
    ensures TranscriptionDir(outputDir) != TtsDir(outputDir)
  {
    var c, e, t, o := "collected", "extracted_audio", "transcriptions", "tts_output";
    assert c[0] == 'c' && e[0] == 'e' && t[0] == 't' && o[0] == 't' && t[1] == 'r' && o[1] == 't';
    DistinctSubdirectory(outputDir, c, e);
    DistinctSubdirectory(outputDir, c, t);
    DistinctSubdirectory(outputDir, c, o);
    DistinctSubdirectory(outputDir, e, t);
    DistinctSubdirectory(outputDir, e, o);
    DistinctSubdirectory(outputDir, t, o);
  }

  // ---------------------------------------------------------------------------
  // Collecting
  // ---------------------------------------------------------------------------

  /**
   `collect`: a YouTube link is downloaded, an existing file is copied, and
   anything else is refused. On success the path is appended to the collected
   files; on failure the pipeline is unchanged.
   */
  function Collect(p: SpeechPipeline, source: string, audioOnly: bool, fs: FileSystem, download: Download)
    : (s: Step<string>)
    ensures s.result.Ok? ==> s.state == p.(collectedFiles := p.collectedFiles + [s.result.value])
    ensures s.result.Err? ==> s.state == p
    ensures IsYoutubeUrl(source) ==> s.result == CollectFromYoutube(source, CollectDir(p.outputDir), audioOnly, download)
    ensures !IsYoutubeUrl(source) && !IsFile(fs, source) ==> s.result == Err(InvalidSource(source))
    ensures !IsYoutubeUrl(source) && IsFile(fs, source) ==> s.result == CollectLocalFile(source, CollectDir(p.outputDir), fs)
  {
    var result :=
      if IsYoutubeUrl(source) then CollectFromYoutube(source, CollectDir(p.outputDir), audioOnly, download)
      else if IsFile(fs, source) then CollectLocalFile(source, CollectDir(p.outputDir), fs)
      else Err(InvalidSource(source));
    match result
    case Ok(path) => Step(result, p.(collectedFiles := p.collectedFiles + [path]))
    case Err(_) => Step(result, p)
  }

  /** A local file is copied into the pipeline's collection directory under its own name. */
  lemma LocalFileLandsInCollectDir(p: SpeechPipeline, source: string, audioOnly: bool, fs: FileSystem, download: Download)
    requires !IsYoutubeUrl(source)
    requires Collect(p, source, audioOnly, fs, download).result.Ok?
    ensures var path := Collect(p, source, audioOnly, fs, download).result.value;
            && Name(path) == Name(source)
            && StartsWith(path, CollectDir(p.outputDir))
  {
    var dir := CollectDir(p.outputDir);
    assert Collect(p, source, audioOnly, fs, download).result == CollectLocalFile(source, dir, fs);
    CopiedIntoDirectory(source, dir, fs);
  }

  lemma CopiedIntoDirectory(filepath: string, outputDir: string, fs: FileSystem)
    requires CollectLocalFile(filepath, outputDir, fs).Ok?
    ensures StartsWith(CollectLocalFile(filepath, outputDir, fs).value, outputDir)
    ensures Name(CollectLocalFile(filepath, outputDir, fs).value) == Name(filepath)
  {
    MediaHasSuffix(filepath);
    RelativeName(outputDir, Name(filepath));
  }

  /** Collecting counts: a successful `collect` adds one file to the summary, a failed one adds none. */
  lemma CollectCounts(p: SpeechPipeline, source: string, audioOnly: bool, fs: FileSystem, download: Download)
    ensures var s := Collect(p, source, audioOnly, fs, download);
            && GetSummary(s.state).collectedCount == GetSummary(p).collectedCount + (if s.result.Ok? then 1 else 0)
            && GetSummary(s.state).transcriptionCount == GetSummary(p).transcriptionCount
            && (s.result.Ok? ==> GetSummary(s.state).files[GetSummary(p).collectedCount] == s.result.value)
  {
  }

  /** `collect_directory`: the files collected from the tree are appended, in order. */
  method CollectDirectory(p: SpeechPipeline, sourceDir: string, fs: FileSystem, walk: seq<WalkStep>)
    returns (r: Result<seq<string>>, q: SpeechPipeline)
    ensures !IsDir(fs, sourceDir) ==> r == Err(NotADirectory(sourceDir)) && q == p
    ensures IsDir(fs, sourceDir) ==> r == Ok(Harvest(VisitOrder(walk), GatherInto(CollectDir(p.outputDir), fs)))
    ensures r.Ok? ==> q == p.(collectedFiles := p.collectedFiles + r.value)
  {
    r := CollectFromDirectory(sourceDir, CollectDir(p.outputDir), fs, walk);
    match r {
      case Ok(files) => q := p.(collectedFiles := p.collectedFiles + files);
      case Err(_) => q := p;
    }
  }

  // ---------------------------------------------------------------------------
  // Transcribing
  // ---------------------------------------------------------------------------

  /** `transcribe`: one file, with the pipeline's output directory; only a success is recorded. */
  function Transcribe(p: SpeechPipeline, filepath: string, language: Option<string>, fs: FileSystem, tools: Tools)
    : (s: Step<Transcript>)
    ensures s.result == ProcessFile(filepath, p.outputDir, language, fs, tools)
    ensures s.result.Ok? ==> s.state == p.(transcriptions := p.transcriptions + [Transcribed(s.result.value)])
    ensures s.result.Err? ==> s.state == p
  {
    var result := ProcessFile(filepath, p.outputDir, language, fs, tools);
    match result
    case Ok(t) => Step(result, p.(transcriptions := p.transcriptions + [Transcribed(t)]))
    case Err(_) => Step(result, p)
  }

  /**
   `transcribe_all`: with nothing collected, nothing happens; otherwise every
   collected file is processed and every outcome, failures included, is
   appended to the transcriptions.
   */
  method TranscribeAll(p: SpeechPipeline, language: Option<string>, fs: FileSystem, tools: Tools)
    returns (results: seq<Outcome>, q: SpeechPipeline)
    ensures |p.collectedFiles| == 0 ==> results == [] && q == p
    ensures |results| == |p.collectedFiles|
    ensures forall i :: 0 <= i < |results| ==>
              results[i] == OutcomeOf(p.collectedFiles[i], p.outputDir, language, fs, tools)
    ensures q == p.(transcriptions := p.transcriptions + results)
    ensures GetSummary(q).transcriptionCount == GetSummary(p).transcriptionCount + |p.collectedFiles|
    ensures GetSummary(q).files == GetSummary(p).files
  {
    if |p.collectedFiles| == 0 {
      return [], p;
    }
    results := ProcessBatch(p.collectedFiles, p.outputDir, language, fs, tools);
    q := p.(transcriptions := p.transcriptions + results);
  }

  // ---------------------------------------------------------------------------
  // Speaking
  // ---------------------------------------------------------------------------

  /** How many names in a directory listing end with `ending`. */
  function CountEnding(listing: seq<string>, ending: string): (n: nat)
    ensures n <= |listing|
    ensures (forall i :: 0 <= i < |listing| ==> !EndsWith(listing[i], ending)) ==> n == 0
    ensures (forall i :: 0 <= i < |listing| ==> EndsWith(listing[i], ending)) ==> n == |listing|
  {
    if |listing| == 0 then 0
    else CountEnding(listing[..|listing| - 1], ending) + (if EndsWith(listing[|listing| - 1], ending) then 1 else 0)
  }

  /** Reference reading of the count: the listed names with the ending, front to back. */
  function WithEnding(listing: seq<string>, ending: string): seq<string> {
    if |listing| == 0 then []
    else (if EndsWith(listing[0], ending) then [listing[0]] else []) + WithEnding(listing[1..], ending)
  }

  lemma {:induction false} WithEndingAppend(a: seq<string>, b: seq<string>, ending: string)
    ensures WithEnding(a + b, ending) == WithEnding(a, ending) + WithEnding(b, ending)
    decreases |a|
  {
    if |a| == 0 {
      assert a + b == b;
    } else {
      assert (a + b)[0] == a[0] && (a + b)[1..] == a[1..] + b;
      WithEndingAppend(a[1..], b, ending);
    }
  }

  /** The count is the number of listed names with the ending, wherever they sit among the others. */
  lemma {:induction false} CountIsFiltered(listing: seq<string>, ending: string)
    ensures CountEnding(listing, ending) == |WithEnding(listing, ending)|
    decreases |listing|
  {
    if |listing| > 0 {
      var front, last := listing[..|listing| - 1], listing[|listing| - 1];
      assert listing == front + [last];
      CountIsFiltered(front, ending);
      WithEndingAppend(front, [last], ending);
      assert [last][1..] == [];
    }
  }

  /** Counting a listing in two parts adds the parts' counts. */
  lemma {:induction false} CountAppend(a: seq<string>, b: seq<string>, ending: string)
    ensures CountEnding(a + b, ending) == CountEnding(a, ending) + CountEnding(b, ending)
  {
    CountIsFiltered(a + b, ending);
    CountIsFiltered(a, ending);
    CountIsFiltered(b, ending);
    WithEndingAppend(a, b, ending);
  }

  lemma MixedListingCount(listing: seq<string>)
    requires listing == ["a.wav", "speech_001.mp3"]
    ensures CountEnding(listing, ".mp3") == 1
  {
    assert !EndsWith(listing[0], ".mp3") by {
      assert listing[0][|listing[0]| - 4..][1] == 'w';
    }
    assert EndsWith(listing[1], ".mp3") by {
      assert listing[1][|listing[1]| - 4..] == ".mp3";
    }
    assert listing[..1] == [listing[0]];
    assert listing[..1][..0] == [];
  }

  /** A listing with one other-format file and one earlier speech file: the next name is number 2. */
  lemma MixedListingNumbered(listing: seq<string>, format: string)
    requires listing == ["a.wav", "speech_001.mp3"] && format == "mp3"
    ensures SpeechFileName(None, format, listing) == SpeechName(2, format)
  {
    MixedListingCount(listing);
    assert "." + format == ".mp3";
  }

  /** `speech_NNN.<format>`: the automatic name with number `n`. */
  function SpeechName(n: nat, format: string): string {
    "speech_" + Pad3(n) + "." + format
  }

  /**
   The file name `speak` writes to: the given one, or the automatic name
   numbered one past the count of files in the speech directory that end
   with ".<format>".
   */
  function SpeechFileName(filename: Option<string>, format: string, listing: seq<string>): (name: string)
    ensures filename.Some? ==> name == filename.value
    ensures filename.None? ==> StartsWith(name, "speech_") && EndsWith(name, "." + format)
    ensures filename.None? ==> name == SpeechName(CountEnding(listing, "." + format) + 1, format)
    ensures filename.None? && (forall i :: 0 <= i < |listing| ==> !EndsWith(listing[i], "." + format)) ==>
              name == SpeechName(1, format)
  {
    match filename
    case Some(name) => name
    case None =>
      var n := CountEnding(listing, "." + format) + 1;
      SpeechNameEnding(n, format);
      assert SpeechName(n, format) == "speech_" + (Pad3(n) + "." + format);
      SpeechName(n, format)
  }

  lemma SpeechNameEnding(n: nat, format: string)
    ensures EndsWith(SpeechName(n, format), "." + format)
  {
    var s := SpeechName(n, format);
    assert s == ("speech_" + Pad3(n)) + ("." + format);
  }

  lemma SpeechNameInjective(i: nat, j: nat, format: string)
    requires SpeechName(i, format) == SpeechName(j, format)
    ensures i == j
  {
    SameMiddle("speech_", Pad3(i), Pad3(j), ".", format);
    Pad3Injective(i, j);
  }

  /** The automatic names `speech_001.<format>` … `speech_<n>.<format>`, in order. */
  function AutoNames(n: nat, format: string): (names: seq<string>)
    ensures |names| == n
    ensures forall k :: 0 <= k < n ==> names[k] == SpeechName(k + 1, format)
  {
    if n == 0 then [] else AutoNames(n - 1, format) + [SpeechName(n, format)]
  }

  lemma {:induction false} AutoNamesCounted(n: nat, format: string)
    ensures CountEnding(AutoNames(n, format), "." + format) == n
  {
    if n > 0 {
      AutoNamesCounted(n - 1, format);
      SpeechNameEnding(n, format);
      assert AutoNames(n, format)[..n - 1] == AutoNames(n - 1, format);
    }
  }

  /**
   Used on its own, `speak` numbers its files consecutively: when the speech
   directory holds exactly the first `n` automatic names, the next name is
   number n + 1 and is new.
   */
  lemma AutoNamingContinues(n: nat, format: string)
    ensures SpeechFileName(None, format, AutoNames(n, format)) == SpeechName(n + 1, format)
    ensures SpeechName(n + 1, format) !in AutoNames(n, format)
  {
    AutoNamesCounted(n, format);
    if SpeechName(n + 1, format) in AutoNames(n, format) {
      var k :| 0 <= k < n && AutoNames(n, format)[k] == SpeechName(n + 1, format);
      SpeechNameInjective(k + 1, n + 1, format);
    }
  }

  /**
   The number is a count, not a search for a free name: once a file has been
   removed, the next automatic name is one that still exists, and `speak`
   writes over it.
   */
  lemma AutoNameCanRepeat(format: string)
    ensures SpeechFileName(None, format, [SpeechName(2, format)]) == SpeechName(2, format)
  {
    SpeechNameEnding(2, format);
    assert [SpeechName(2, format)][..0] == [];
  }

  /**
   `speak`: synthesise `text` into the speech directory under the chosen file
   name, with the API key taken from the environment.
   */
  function Speak(p: SpeechPipeline, text: string, voice: string, filename: Option<string>, format: string,
                 listing: seq<string>, envKey: string, reply: HttpReply): (r: Result<string>)
    ensures r.Ok? <==> Validate(text, voice, format, "", envKey).Ok? && reply.status == 200
    ensures r.Ok? ==> r.value == Join(TtsDir(p.outputDir), SpeechFileName(filename, format, listing))
    ensures r.Err? ==> r == Synthesize(text, Join(TtsDir(p.outputDir), SpeechFileName(filename, format, listing)),
                                       voice, format, "", envKey, reply)
  {
    Synthesize(text, Join(TtsDir(p.outputDir), SpeechFileName(filename, format, listing)), voice, format, "", envKey, reply)
  }

  /** An automatically named speech file lands in the speech directory under that name. */
  lemma SpokenFileInTtsDir(p: SpeechPipeline, text: string, voice: string, format: string,
                           listing: seq<string>, envKey: string, reply: HttpReply)
    requires '/' !in format
    requires Speak(p, text, voice, None, format, listing, envKey, reply).Ok?
    ensures var path := Speak(p, text, voice, None, format, listing, envKey, reply).value;
            && StartsWith(path, TtsDir(p.outputDir))
            && Name(path) == SpeechFileName(None, format, listing)
  {
    var name := SpeechFileName(None, format, listing);
    SpeechNameIsPlain(CountEnding(listing, "." + format) + 1, format);
    RelativeName(TtsDir(p.outputDir), name);
  }

  lemma SpeechNameIsPlain(n: nat, format: string)
    requires '/' !in format
    ensures SpeechName(n, format) != "" && '/' !in SpeechName(n, format)
  {
    var front := "speech_";
    assert '/' !in front;
    assert forall i :: 0 <= i < |Pad3(n)| ==> Pad3(n)[i] != '/';
    assert SpeechName(n, format) == front + Pad3(n) + "." + format;
  }

  /** `"text" in t and t["text"]`: a successful transcription whose text is not empty. */
  predicate Speaks(o: Outcome) {
    o.Transcribed? && o.transcript.text != ""
  }

  /** The texts `speak_transcriptions` re-synthesises: those of successful transcriptions, empty ones skipped. */
  function SpeakableTexts(ts: seq<Outcome>): (texts: seq<string>)
    ensures |texts| <= |ts|
    ensures forall i :: 0 <= i < |texts| ==> texts[i] != ""
  {
    if |ts| == 0 then []
    else
      var last := ts[|ts| - 1];
      SpeakableTexts(ts[..|ts| - 1]) + (if Speaks(last) then [last.transcript.text] else [])
  }

  /** Recording a transcription with text adds exactly that text, after the earlier ones. */
  lemma SpeakableSnoc(ts: seq<Outcome>, t: Transcript)
    requires t.text != ""
    ensures SpeakableTexts(ts + [Transcribed(t)]) == SpeakableTexts(ts) + [t.text]
  {
    assert (ts + [Transcribed(t)])[..|ts|] == ts;
  }

  /** Recording a failure, or a transcription with empty text, adds nothing. */
  lemma SilentSnoc(ts: seq<Outcome>, o: Outcome)
    requires !Speaks(o)
    ensures SpeakableTexts(ts + [o]) == SpeakableTexts(ts)
  {
    assert (ts + [o])[..|ts|] == ts;
  }

  /** Every transcription with text is spoken: its text is in the list. */
  lemma {:induction false} EveryTranscriptSpoken(ts: seq<Outcome>, i: nat)
    requires i < |ts| && Speaks(ts[i])
    ensures ts[i].transcript.text in SpeakableTexts(ts)
    decreases |ts|
  {
    var init := ts[..|ts| - 1];
    if i < |init| {
      EveryTranscriptSpoken(init, i);
      assert ts[i] == init[i];
    }
  }

  /**
   The comprehension `[t["text"] for t in ts if "text" in t and t["text"]]`
   read front to first: an independent reference for `SpeakableTexts`.
   */
  function Comprehension(ts: seq<Outcome>): seq<string> {
    if |ts| == 0 then []
    else (if Speaks(ts[0]) then [ts[0].transcript.text] else []) + Comprehension(ts[1..])
  }

  /** The texts spoken are exactly the comprehension's, in the same order. */
  lemma {:induction false} SpeakableIsComprehension(ts: seq<Outcome>)
    ensures SpeakableTexts(ts) == Comprehension(ts)
    decreases |ts|
  {
    if |ts| > 0 {
      SpeakableIsComprehension(ts[1..]);
      assert ts == [ts[0]] + ts[1..];
      SpeakableAppend([ts[0]], ts[1..]);
      assert [ts[0]][..0] == [];
    }
  }

  lemma {:induction false} SpeakableAppend(a: seq<Outcome>, b: seq<Outcome>)
    ensures SpeakableTexts(a + b) == SpeakableTexts(a) + SpeakableTexts(b)
    decreases |b|
  {
    if |b| == 0 {
      assert a + b == a;
    } else {
      assert (a + b)[..|a + b| - 1] == a + b[..|b| - 1];
      SpeakableAppend(a, b[..|b| - 1]);
    }
  }

  /** Every text spoken is the text of some successful transcription. */
  lemma {:induction false} SpokenTextsFromTranscripts(ts: seq<Outcome>, text: string)
    requires text in SpeakableTexts(ts)
    ensures exists i :: 0 <= i < |ts| && ts[i].Transcribed? && ts[i].transcript.text == text
    decreases |ts|
  {
    var init := ts[..|ts| - 1];
    if text in SpeakableTexts(init) {
      SpokenTextsFromTranscripts(init, text);
      var i :| 0 <= i < |init| && init[i].Transcribed? && init[i].transcript.text == text;
      assert ts[i] == init[i];
    }
  }

  /**
   `speak_transcriptions`: the speakable texts go to one batch in the speech
   directory, numbered from 1 in transcription order; with none, nothing is sent.
   */
  method SpeakTranscriptions(p: SpeechPipeline, voice: string, format: string, envKey: string,
                             replies: nat -> HttpReply)
    returns (paths: seq<Option<string>>)
    ensures |paths| == |SpeakableTexts(p.transcriptions)|
    ensures forall i :: 0 <= i < |paths| ==>
              paths[i] == BatchEntry(SpeakableTexts(p.transcriptions)[i], TtsDir(p.outputDir), i + 1,
                                     voice, format, "", envKey, replies(i + 1))
  {
    var texts := SpeakableTexts(p.transcriptions);
    if |texts| == 0 {
      return [];
    }
    paths := BatchSynthesize(texts, TtsDir(p.outputDir), voice, format, "", envKey, replies);
  }

  // ---------------------------------------------------------------------------
  // Summary
  // ---------------------------------------------------------------------------

  datatype Summary = Summary(
    outputDir: string,
    whisperModel: string,
    collectedCount: nat,
    transcriptionCount: nat,
    files: seq<string>)

  /** `get_summary`: the counts agree with the lists they count. */
  function GetSummary(p: SpeechPipeline): (r: Summary)
    ensures r.collectedCount == |r.files|
    ensures r.files == p.collectedFiles && r.transcriptionCount == |p.transcriptions|
  {
    Summary(p.outputDir, p.whisperModel, |p.collectedFiles|, |p.transcriptions|, p.collectedFiles)
  }
}

=== FILE: processor.dfy ===
/**
 The processor of processor.py: conversion to WAV before recognition,
 extraction of a video's audio track, the shaping of the recogniser's output
 into a transcript, and the single-file and batch drivers.

 The external programs are parameters: whether ffmpeg converts a given file,
 whether moviepy extracts a given video's audio, and what Whisper returns for
 a given WAV file and language option (None when it raises).
 */
module Processor {
  import opened Results
  import opened Text
  import opened Paths
  import opened Collector

  /** One timed piece of a transcript. Times are passed through untouched. */
  datatype Segment = Segment(start: real, end: real, text: string)

  /** What Whisper's `transcribe` returns: the text, the detected language if reported, the segments. */
  datatype Recognition = Recognition(text: string, language: Option<string>, segments: seq<Segment>)

  /** A transcription record: the audio that was transcribed, the cleaned text, the language, the segments. */
  datatype Transcript = Transcript(audioPath: string, text: string, language: string, segments: seq<Segment>)

  /** The outside programs the processor drives. */
  datatype Tools = Tools(
    converts: string -> bool,
    extracts: string -> bool,
    recognise: (string, Option<string>) -> Option<Recognition>)

  const ConvertedEnding: string := "_converted.wav"

  // ---------------------------------------------------------------------------
  // Conversion to WAV
  // ---------------------------------------------------------------------------

  /** `audio_path.lower().endswith(".wav")` */
  predicate IsWavName(p: string) {
    EndsWith(Lower(p), ".wav")
  }

  /**
   `_ensure_wav`: a path already ending in ".wav" (in any letter case) is used
   as it is; otherwise ffmpeg writes `<path up to its last dot>_converted.wav`,
   and when it fails the original path is used instead.
   */
  function EnsureWav(audioPath: string, converts: bool): (r: string)
    ensures IsWavName(audioPath) || !converts ==> r == audioPath
    ensures !IsWavName(audioPath) && converts ==> r == BeforeLastDot(audioPath) + ConvertedEnding
  {
    if IsWavName(audioPath) then audioPath
    else if !converts then audioPath
    else BeforeLastDot(audioPath) + ConvertedEnding
  }

  lemma LowerKeepsEnding(p: string, ending: string)
    requires EndsWith(p, ending)
    ensures EndsWith(Lower(p), Lower(ending))
  {
    var k := |p| - |ending|;
    var tail := Lower(p)[k..];
    forall i | 0 <= i < |ending| ensures tail[i] == Lower(ending)[i] {
      assert p[k + i] == ending[i];
    }
    assert tail == Lower(ending);
  }

  /** Facts about the two fixed endings, kept apart so that no proof has to compute them again. */
  lemma EndingFacts()
    ensures forall m :: 0 <= m < |ConvertedEnding| ==> ConvertedEnding[m] != '/'
    ensures forall m :: 0 <= m < |".wav"| ==> ".wav"[m] != '/'
    ensures ConvertedEnding[10..] == ".wav" && Lower(".wav") == ".wav"
  {
    LowerFixedPoint(".wav");
  }

  /** Whatever `_ensure_wav` returns is a WAV name, unless ffmpeg failed on a non-WAV file. */
  lemma EnsureWavGivesWav(audioPath: string, converts: bool)
    ensures IsWavName(EnsureWav(audioPath, converts)) <==> IsWavName(audioPath) || converts
  {
    var r := EnsureWav(audioPath, converts);
    if !IsWavName(audioPath) && converts {
      EndingFacts();
      assert EndsWith(r, ".wav") by {
        assert r[|r| - 4..] == ConvertedEnding[10..];
      }
      LowerKeepsEnding(r, ".wav");
    }
  }

  /** A path that is already a WAV name is never converted. */
  lemma WavNeverConverted(audioPath: string, converts: bool)
    requires EndsWith(audioPath, ".wav")
    ensures EnsureWav(audioPath, converts) == audioPath
  {
    LowerKeepsEnding(audioPath, ".wav");
    EndingFacts();
  }

  /**
   For a file that has a suffix, the converted copy sits in the same directory
   as the source and is named after the source's stem: "dir/talk.mp3" becomes
   "dir/talk_converted.wav".
   */
  lemma ConvertedBesideSource(audioPath: string)
    requires Suffix(audioPath) != "" && !IsWavName(audioPath)
    ensures EnsureWav(audioPath, true) == audioPath[..|audioPath| - |Suffix(audioPath)|] + ConvertedEnding
    ensures Name(EnsureWav(audioPath, true)) == Stem(audioPath) + ConvertedEnding
  {
    CutAtSuffixDot(audioPath);
    EndingFacts();
    ReplaceSuffixKeepsDirectory(audioPath, ConvertedEnding);
  }

  /** A path without any dot gets the whole ending appended: "notes" becomes "notes_converted.wav". */
  lemma DotlessPathConverted(audioPath: string)
    requires forall m :: 0 <= m < |audioPath| ==> audioPath[m] != '.'
    ensures EnsureWav(audioPath, true) == audioPath + ConvertedEnding
  {
    if |audioPath| >= 4 {
      var k := |audioPath| - 4;
      assert Lower(audioPath)[k..][0] == LowerChar(audioPath[k]) != '.';
    }
    assert !IsWavName(audioPath);
    assert LastIndexOf(audioPath, '.') == -1;
  }

  /**
   The cut is made at the last dot of the whole path, not of the file name: a
   file without a suffix inside a dotted directory is converted to a file
   outside that directory.
   */
  lemma CutAtLastDotOfPath()
    ensures EnsureWav("a.b/c", true) == "a_converted.wav"
  {
    var p := "a.b/c";
    assert Lower(p)[1..][1] == LowerChar(p[2]);
    assert !IsWavName(p);
    ConvertedAtDot(p, 1);
    assert p[..1] == "a";
  }

  /** A name ending in a dot loses only that dot: "talk." becomes "talk_converted.wav". */
  lemma TrailingDotConverted()
    ensures EnsureWav("talk.", true) == "talk_converted.wav"
  {
    var p := "talk.";
    assert Lower(p)[1..][0] == LowerChar(p[1]);
    assert !IsWavName(p);
    ConvertedAtDot(p, 4);
    assert p[..4] == "talk";
  }

  /** A non-WAV path whose last dot is at `j` is converted to its first j characters plus the ending. */
  lemma ConvertedAtDot(audioPath: string, j: nat)
    requires !IsWavName(audioPath)
    requires j < |audioPath| && audioPath[j] == '.'
    requires forall m :: j < m < |audioPath| ==> audioPath[m] != '.'
    ensures EnsureWav(audioPath, true) == audioPath[..j] + ConvertedEnding
  {
    LastIndexOfIs(audioPath, '.', j);
  }

  // ---------------------------------------------------------------------------
  // Extraction and transcription
  // ---------------------------------------------------------------------------

  /**
   `extract_audio_from_video`: a missing video is an error; otherwise moviepy
   writes `<outputDir>/<stem>.wav`, or fails.
   */
  function ExtractAudio(videoPath: string, outputDir: string, fs: FileSystem, tools: Tools): (r: Result<string>)
    ensures !Exists(fs, videoPath) ==> r == Err(FileNotFound(videoPath))
    ensures Exists(fs, videoPath) && !tools.extracts(videoPath) ==> r == Err(ExtractionFailed(videoPath))
    ensures r.Ok? <==> Exists(fs, videoPath) && tools.extracts(videoPath)
    ensures r.Ok? ==> StartsWith(r.value, outputDir) && Name(r.value) == Stem(videoPath) + ".wav"
    ensures r.Ok? ==> EndsWith(r.value, ".wav")
  {
    if !Exists(fs, videoPath) then Err(FileNotFound(videoPath))
    else if !tools.extracts(videoPath) then Err(ExtractionFailed(videoPath))
    else
      var track := Stem(videoPath) + ".wav";
      assert StartsWith(Join(outputDir, track), outputDir) && Name(Join(outputDir, track)) == track by {
        TrackNameIsPlain(videoPath);
        RelativeName(outputDir, track);
      }
      Ok(Join(outputDir, track))
  }

  /** A track name `<stem>.wav` is a non-empty name without a separator. */
  lemma TrackNameIsPlain(videoPath: string)
    ensures Stem(videoPath) + ".wav" != "" && '/' !in Stem(videoPath) + ".wav"
  {
    var track := Stem(videoPath) + ".wav";
    StemHasNoSeparator(videoPath);
    EndingFacts();
    assert forall m :: 0 <= m < |track| ==> track[m] != '/' by {
      forall m | 0 <= m < |track| ensures track[m] != '/' {
        if m < |Stem(videoPath)| {
          assert track[m] == Stem(videoPath)[m];
        } else {
          assert track[m] == ".wav"[m - |Stem(videoPath)|];
        }
      }
    }
  }

  /** `if language: options["language"] = language`: an empty language means auto-detection. */
  function LanguageOption(language: Option<string>): (r: Option<string>)
    ensures r.Some? <==> language.Some? && language.value != ""
    ensures r.Some? ==> r == language
  {
    match language
    case Some(l) => if l != "" then Some(l) else None
    case None => None
  }

  /** Each segment keeps its times and has its text stripped. */
  function CleanSegments(segments: seq<Segment>): (r: seq<Segment>)
    ensures |r| == |segments|
    ensures forall i :: 0 <= i < |segments| ==>
              r[i] == Segment(segments[i].start, segments[i].end, Strip(segments[i].text))
  {
    if |segments| == 0 then []
    else [Segment(segments[0].start, segments[0].end, Strip(segments[0].text))] + CleanSegments(segments[1..])
  }

  /**
   The record `transcribe_audio` builds from Whisper's output: the stripped
   text, the reported language or "unknown", and the segments one for one, in
   order, each keeping its times with its text stripped.
   */
  function Shape(audioPath: string, rec: Recognition): (t: Transcript)
    ensures t.audioPath == audioPath
    ensures t.text == Strip(rec.text)
    ensures rec.language.None? ==> t.language == "unknown"
    ensures rec.language.Some? ==> t.language == rec.language.value
    ensures |t.segments| == |rec.segments|
    ensures forall i :: 0 <= i < |rec.segments| ==>
              t.segments[i] == Segment(rec.segments[i].start, rec.segments[i].end, Strip(rec.segments[i].text))
  {
    Transcript(audioPath, Strip(rec.text), rec.language.GetOr("unknown"), CleanSegments(rec.segments))
  }

  /** No text in a shaped transcript, overall or per segment, begins or ends with whitespace. */
  predicate Clean(t: Transcript) {
    && Strip(t.text) == t.text
    && forall i :: 0 <= i < |t.segments| ==> Strip(t.segments[i].text) == t.segments[i].text
  }

  /** The recogniser's output read back from a transcript. */
  function AsRecognition(t: Transcript): Recognition {
    Recognition(t.text, Some(t.language), t.segments)
  }

  /** Shaping cleans every text and drops nothing: shaping a shaped transcript again changes nothing. */
  lemma ShapeIsClean(audioPath: string, rec: Recognition)
    ensures Clean(Shape(audioPath, rec))
    ensures Shape(audioPath, AsRecognition(Shape(audioPath, rec))) == Shape(audioPath, rec)
  {
    StripIdempotent(rec.text);
    CleanSegmentsClean(rec.segments);
  }

  lemma CleanSegmentsClean(segments: seq<Segment>)
    ensures forall i :: 0 <= i < |segments| ==> Strip(CleanSegments(segments)[i].text) == CleanSegments(segments)[i].text
    ensures CleanSegments(CleanSegments(segments)) == CleanSegments(segments)
  {
    var r := CleanSegments(segments);
    forall i | 0 <= i < |segments| ensures Strip(r[i].text) == r[i].text {
      StripIdempotent(segments[i].text);
    }
    assert CleanSegments(r) == r;
  }

  /**
   `transcribe_audio`: a missing file is an error; otherwise the file is
   converted to WAV if need be and handed to Whisper, with the language only
   when one was given.
   */
  function TranscribeAudio(audioPath: string, language: Option<string>, fs: FileSystem, tools: Tools): (r: Result<Transcript>)
    ensures !Exists(fs, audioPath) ==> r == Err(FileNotFound(audioPath))
    ensures var answer := tools.recognise(EnsureWav(audioPath, tools.converts(audioPath)), LanguageOption(language));
            && (r.Ok? <==> Exists(fs, audioPath) && answer.Some?)
            && (Exists(fs, audioPath) && answer.None? ==> r == Err(TranscriptionFailed(audioPath)))
            && (r.Ok? ==> r.value == Shape(audioPath, answer.value))
    ensures r.Ok? ==> Clean(r.value)
  {
    if !Exists(fs, audioPath) then Err(FileNotFound(audioPath))
    else
      var wav := EnsureWav(audioPath, tools.converts(audioPath));
      match tools.recognise(wav, LanguageOption(language))
      case None => Err(TranscriptionFailed(audioPath))
      case Some(rec) =>
        assert Clean(Shape(audioPath, rec)) by { ShapeIsClean(audioPath, rec); }
        Ok(Shape(audioPath, rec))
  }

  /** The directory extracted audio goes to: `<outputDir>/extracted_audio`. */
  function ExtractedAudioDir(outputDir: string): string {
    Join(outputDir, "extracted_audio")
  }

  /** Where a video's audio track is extracted to: `<outputDir>/extracted_audio/<stem>.wav`. */
  function ExtractedTrack(outputDir: string, filepath: string): string {
    Join(ExtractedAudioDir(outputDir), Stem(filepath) + ".wav")
  }

  /**
   `process_file`: a video is extracted first (the extracted file then
   exists) and its audio transcribed; an audio file is transcribed as it is;
   anything else is refused. Video is tested before audio.
   */
  function ProcessFile(filepath: string, outputDir: string, language: Option<string>, fs: FileSystem, tools: Tools)
    : (r: Result<Transcript>)
    ensures !IsMedia(filepath) ==> r == Err(UnsupportedFile(filepath))
    ensures IsMedia(filepath) && !Exists(fs, filepath) ==> r == Err(FileNotFound(filepath))
    ensures IsAudio(filepath) ==> r == TranscribeAudio(filepath, language, fs, tools)
    ensures IsVideo(filepath) && Exists(fs, filepath) && !tools.extracts(filepath) ==>
              r == Err(ExtractionFailed(filepath))
    ensures IsVideo(filepath) && Exists(fs, filepath) && tools.extracts(filepath) ==>
              var track := ExtractedTrack(outputDir, filepath);
              var answer := tools.recognise(track, LanguageOption(language));
              && (r.Ok? <==> answer.Some?)
              && (r.Ok? ==> r.value == Shape(track, answer.value))
              && (r.Err? ==> r == Err(TranscriptionFailed(track)))
    ensures r.Ok? ==> Clean(r.value)
  {
    assert !(IsAudio(filepath) && IsVideo(filepath)) by { NeverAudioAndVideo(filepath); }
    if IsVideo(filepath) then
      var audioPath :- ExtractAudio(filepath, ExtractedAudioDir(outputDir), fs, tools);
      assert audioPath == ExtractedTrack(outputDir, filepath);
      assert EnsureWav(audioPath, tools.converts(audioPath)) == audioPath by {
        WavNeverConverted(audioPath, tools.converts(audioPath));
      }
      TranscribeAudio(audioPath, language, fs[audioPath := File(true)], tools)
    else if IsAudio(filepath) then
      TranscribeAudio(filepath, language, fs, tools)
    else
      Err(UnsupportedFile(filepath))
  }

  /**
   A video's transcript names the extracted track, `<outputDir>/extracted_audio/<stem>.wav`,
   and that track is handed to Whisper without conversion.
   */
  lemma VideoTranscriptNamesExtractedTrack(filepath: string, outputDir: string, language: Option<string>,
                                           fs: FileSystem, tools: Tools)
    requires IsVideo(filepath)
    requires ProcessFile(filepath, outputDir, language, fs, tools).Ok?
    ensures var track := ExtractedTrack(outputDir, filepath);
            && ProcessFile(filepath, outputDir, language, fs, tools).value.audioPath == track
            && EnsureWav(track, tools.converts(track)) == track
  {
    NeverAudioAndVideo(filepath);
    var track := ExtractedTrack(outputDir, filepath);
    assert ExtractAudio(filepath, ExtractedAudioDir(outputDir), fs, tools) == Ok(track);
    WavNeverConverted(track, tools.converts(track));
  }

  // ---------------------------------------------------------------------------
  // Batches
  // ---------------------------------------------------------------------------

  /** An entry of `process_batch`'s result: a transcript, or the input path with the error. */
  datatype Outcome = Transcribed(transcript: Transcript) | Failed(audioPath: string, error: Error)

  /** The entry `process_batch` records for one input path. */
  function OutcomeOf(filepath: string, outputDir: string, language: Option<string>, fs: FileSystem, tools: Tools)
    : Outcome
  {
    match ProcessFile(filepath, outputDir, language, fs, tools)
    case Ok(t) => Transcribed(t)
    case Err(e) => Failed(filepath, e)
  }

  /** A failure is recorded against the input path with the error that stopped it; a success carries the transcript. */
  lemma OutcomeRecordsResult(filepath: string, outputDir: string, language: Option<string>, fs: FileSystem, tools: Tools)
    ensures var o := OutcomeOf(filepath, outputDir, language, fs, tools);
            var r := ProcessFile(filepath, outputDir, language, fs, tools);
            && (o.Transcribed? <==> r.Ok?)
            && (o.Transcribed? ==> o.transcript == r.value)
            && (o.Failed? ==> o.audioPath == filepath && o.error == r.error)
  {
  }

  /**
   `process_batch`: every input gets exactly one entry, in input order; a
   failing file does not stop the batch.
   */
  method ProcessBatch(filepaths: seq<string>, outputDir: string, language: Option<string>, fs: FileSystem, tools: Tools)
    returns (results: seq<Outcome>)
    ensures |results| == |filepaths|
    ensures forall i :: 0 <= i < |filepaths| ==> results[i] == OutcomeOf(filepaths[i], outputDir, language, fs, tools)
  {
    results := EachOutcome(filepaths, p => OutcomeOf(p, outputDir, language, fs, tools));
  }

  /** The batch loop: one outcome per path, in order. */
  method EachOutcome(filepaths: seq<string>, outcome: string -> Outcome) returns (results: seq<Outcome>)
    ensures |results| == |filepaths|
    ensures forall i :: 0 <= i < |filepaths| ==> results[i] == outcome(filepaths[i])
  {
    results := [];
    var i := 0;
    while i < |filepaths|
      invariant 0 <= i <= |filepaths|
      invariant |results| == i
      invariant forall k :: 0 <= k < i ==> results[k] == outcome(filepaths[k])
    {
      results := results + [outcome(filepaths[i])];
      i := i + 1;
    }
  }
}

=== FILE: results.dfy ===
/**
 The failures the voice pipeline can report, and the success/failure wrapper
 every fallible operation of the model returns. Each constructor of `Error`
 stands for one exception the program raises (or one error entry it records),
 carrying the datum its message mentions.
 */
module Results {

  datatype Option<+T> = None | Some(value: T) {
    function GetOr(default: T): T {
      match this
      case Some(v) => v
      case None => default
    }
  }

  datatype Error =
    // collector.py
    | FileNotFound(path: string)
    | UnsupportedFormat(suffix: string)
    | NotADirectory(path: string)
    | CopyFailed(path: string)
    | DownloadFailed(url: string)
    // pipeline.py
    | InvalidSource(source: string)
    // processor.py
    | UnsupportedFile(path: string)
    | ExtractionFailed(path: string)
    | TranscriptionFailed(path: string)
    // yarngpt_tts.py
    | TextTooLong(length: nat)
    | UnknownVoice(voice: string)
    | InvalidFormat(format: string)
    | MissingApiKey
    | SynthesisFailed(status: int, body: string)
    // llm_providers.py
    | RequestFailed
    | MalformedEvent(payload: string)
    | EmptyResponse
    | UnknownProvider(name: string)
    | MissingCredential(provider: string)

  datatype Result<+T> = Ok(value: T) | Err(error: Error) {
    predicate IsFailure() {
      Err?
    }

    function PropagateFailure<U>(): Result<U>
      requires Err?
    {
      Err(error)
    }

    function Extract(): T
      requires Ok?
    {
      value
    }
  }
}

=== FILE: sorting.dfy ===
/**
 Python's `sorted()` on a list of strings: the strings are compared by code
 point, character by character, with a proper prefix ordered first.
 */
module Sorting {

  /** `a <= b` for Python strings. */
  predicate LexLe(a: string, b: string) {
    if |a| == 0 then true
    else if |b| == 0 then false
    else if a[0] != b[0] then a[0] < b[0]
    else LexLe(a[1..], b[1..])
  }

  lemma {:induction false} LexLeTotal(a: string, b: string)
    ensures LexLe(a, b) || LexLe(b, a)
  {
    if |a| > 0 && |b| > 0 && a[0] == b[0] {
      LexLeTotal(a[1..], b[1..]);
    }
  }

  lemma {:induction false} LexLeAntisymmetric(a: string, b: string)
    requires LexLe(a, b) && LexLe(b, a)
    ensures a == b
  {
    if |a| > 0 && |b| > 0 {
      LexLeAntisymmetric(a[1..], b[1..]);
      assert a == [a[0]] + a[1..];
      assert b == [b[0]] + b[1..];
    }
  }

  lemma {:induction false} LexLeTransitive(a: string, b: string, c: string)
    requires LexLe(a, b) && LexLe(b, c)
    ensures LexLe(a, c)
  {
    if |a| > 0 && |b| > 0 && |c| > 0 && a[0] == b[0] == c[0] {
      LexLeTransitive(a[1..], b[1..], c[1..]);
    }
  }

  predicate Sorted(s: seq<string>) {
    forall i, j :: 0 <= i < j < |s| ==> LexLe(s[i], s[j])
  }

  /** Places `x` into the sorted list `s` just before the first element it does not exceed. */
  function Insert(x: string, s: seq<string>): (r: seq<string>)
    requires Sorted(s)
    ensures Sorted(r)
    ensures multiset(r) == multiset(s) + multiset{x}
  {
    if |s| == 0 then [x]
    else if LexLe(x, s[0]) then
      assert forall j :: 0 <= j < |s| ==> LexLe(x, s[j]) by {
        forall j | 0 <= j < |s| ensures LexLe(x, s[j]) {
          if j > 0 { LexLeTransitive(x, s[0], s[j]); }
        }
      }
      [x] + s
    else
      LexLeTotal(x, s[0]);
      var rest := Insert(x, s[1..]);
      assert s == [s[0]] + s[1..];
      var others := s[1..] + [x];
      assert multiset(rest) == multiset(others);
      assert forall j :: 0 <= j < |others| ==> LexLe(s[0], others[j]) by {
        forall j | 0 <= j < |others| ensures LexLe(s[0], others[j]) {
          if j < |s| - 1 { assert others[j] == s[j + 1]; }
        }
      }
      BoundedBelow(s[0], rest, others);
      [s[0]] + rest
  }

  /** A lower bound for every element carries over to any rearrangement. */
  lemma BoundedBelow(lo: string, xs: seq<string>, ys: seq<string>)
    requires multiset(xs) == multiset(ys)
    requires forall j :: 0 <= j < |ys| ==> LexLe(lo, ys[j])
    ensures forall j :: 0 <= j < |xs| ==> LexLe(lo, xs[j])
  {
    forall j | 0 <= j < |xs| ensures LexLe(lo, xs[j]) {
      assert xs[j] in multiset(ys);
      var k :| 0 <= k < |ys| && ys[k] == xs[j];
    }
  }

  /** `sorted(s)`: the same strings, in ascending order. */
  function Sort(s: seq<string>): (r: seq<string>)
    ensures Sorted(r)
    ensures multiset(r) == multiset(s)
  {
    if |s| == 0 then []
    else
      assert s == [s[0]] + s[1..];
      Insert(s[0], Sort(s[1..]))
  }
}

=== FILE: synthesis.dfy ===
/**
 The YarnGPT speech-synthesis adapter of yarngpt_tts.py: the voice table, the
 checks a request passes before it is sent, how the HTTP answer becomes a
 result, and the batch variant that keeps going past failures.

 The HTTP exchange itself is not modelled: the answer (status and body text)
 is a parameter, and writing the audio bytes to disk is left out.
 */
module Synthesis {
  import opened Results
  import opened Text
  import opened Paths

  datatype Voice = Voice(name: string, description: string)

  /** `YARNGPT_VOICES`, in its declaration order. */
  const Voices: seq<Voice> := [
    Voice("Idera", "Melodic, gentle"),
    Voice("Emma", "Authoritative, deep"),
    Voice("Zainab", "Soothing, gentle"),
    Voice("Osagie", "Smooth, calm"),
    Voice("Jude", "Warm, confident"),
    Voice("Chinenye", "Engaging, warm"),
    Voice("Tayo", "Upbeat, energetic"),
    Voice("Regina", "Mature, warm"),
    Voice("Adaora", "Warm, Engaging"),
    Voice("Umar", "Calm, smooth"),
    Voice("Mary", "Energetic, youthful"),
    Voice("Nonso", "Bold, resonant"),
    Voice("Remi", "Melodious, warm"),
    Voice("Adam", "Deep, Clear")
  ]

  const MaxTextLength: nat := 2000
  const Formats: set<string> := {"mp3", "wav", "opus", "flac"}
  /** How much of an error body a failure report keeps. */
  const ErrorBodyLimit: nat := 300

  /** `list_voice_names()`: the voice names in table order. */
  function VoiceNames(): (names: seq<string>)
    ensures |names| == |Voices|
    ensures forall i :: 0 <= i < |Voices| ==> names[i] == Voices[i].name
  {
    seq(|Voices|, i requires 0 <= i < |Voices| => Voices[i].name)
  }

  predicate IsVoiceName(name: string) {
    name in VoiceNames()
  }

  /** `voice.strip().title()`: the stripped request, its letters re-cased. */
  function NormaliseVoice(voice: string): (name: string)
    ensures SameIgnoringCase(name, Strip(voice))
  {
    TitleOnlyChangesCase(Strip(voice));
    Title(Strip(voice))
  }

  /** A normalised voice name is already normal: resolving it again changes nothing. */
  lemma NormaliseVoiceIdempotent(voice: string)
    ensures NormaliseVoice(NormaliseVoice(voice)) == NormaliseVoice(voice)
  {
    var s := Strip(voice);
    var n := NormaliseVoice(voice);
    TitleOnlyChangesCase(s);
    if |n| > 0 {
      assert !IsLetter(n[0]) ==> n[0] == s[0];
      assert !IsLetter(n[|n| - 1]) ==> n[|n| - 1] == s[|s| - 1];
    }
    StripFixedPoint(n);
    TitleIdempotent(s);
  }

  /** A capitalised word: one upper-case letter followed by lower-case letters. */
  predicate Capitalised(s: string) {
    |s| > 0 && IsUpper(s[0]) && forall i :: 0 < i < |s| ==> IsLower(s[i])
  }

  lemma CapitalisedIsTitled(s: string)
    requires Capitalised(s)
    ensures Title(s) == s
  {
    forall i | 0 <= i < |s| ensures Title(s)[i] == s[i] {
      if i == 0 {
        assert Title(s)[0] == UpperChar(s[0]);
      } else {
        assert Title(s)[i] == (if IsLetter(s[i - 1]) then LowerChar(s[i]) else UpperChar(s[i]));
      }
    }
  }

  /** Every name in the table is already in normal form, so it resolves to itself. */
  lemma VoiceNamesAreNormal(i: nat)
    requires i < |Voices|
    ensures NormaliseVoice(Voices[i].name) == Voices[i].name
  {
    var n := Voices[i].name;
    assert Capitalised(n);
    StripFixedPoint(n);
    CapitalisedIsTitled(n);
  }

  /** The table has no two voices with the same name. */
  lemma VoiceNamesDistinct()
    ensures forall i, j :: 0 <= i < j < |Voices| ==> Voices[i].name != Voices[j].name
  {
  }

  /**
   A requested voice resolves to a table name whenever, once surrounding
   whitespace is removed, it spells that name in any mix of letter cases:
   " idera " and "IDERA" both resolve to "Idera".
   */
  lemma VoiceLookupIgnoresCase(voice: string, i: nat)
    requires i < |Voices|
    requires SameIgnoringCase(Strip(voice), Voices[i].name)
    ensures NormaliseVoice(voice) == Voices[i].name
  {
    TitleIgnoresCase(Strip(voice), Voices[i].name);
    VoiceNamesAreNormal(i);
    StripFixedPoint(Voices[i].name);
  }

  /** A request that passed validation, as sent to the service. */
  datatype Request = Request(text: string, voice: string, format: string, key: string)

  /**
   The checks of `synthesize_speech`, in the order it makes them: length, then
   voice, then format, then the API key (`api_key or YARNGPT_API_KEY`, where an
   empty string counts as absent). The first failing check decides the error.
   */
  function Validate(text: string, voice: string, format: string, apiKey: string, envKey: string): (r: Result<Request>)
    ensures |text| > MaxTextLength ==> r == Err(TextTooLong(|text|))
    ensures |text| <= MaxTextLength && !IsVoiceName(NormaliseVoice(voice)) ==>
              r == Err(UnknownVoice(NormaliseVoice(voice)))
    ensures |text| <= MaxTextLength && IsVoiceName(NormaliseVoice(voice)) && format !in Formats ==>
              r == Err(InvalidFormat(format))
    ensures (|text| <= MaxTextLength && IsVoiceName(NormaliseVoice(voice)) && format in Formats
             && apiKey == "" && envKey == "") ==> r == Err(MissingApiKey)
    ensures r.Ok? <==> |text| <= MaxTextLength && IsVoiceName(NormaliseVoice(voice)) && format in Formats
                       && (apiKey != "" || envKey != "")
    ensures r.Ok? ==> r.value == Request(text, NormaliseVoice(voice), format, if apiKey != "" then apiKey else envKey)
  {
    if |text| > MaxTextLength then Err(TextTooLong(|text|))
    else
      var name := NormaliseVoice(voice);
      if !IsVoiceName(name) then Err(UnknownVoice(name))
      else if format !in Formats then Err(InvalidFormat(format))
      else
        var key := if apiKey != "" then apiKey else envKey;
        if key == "" then Err(MissingApiKey) else Ok(Request(text, name, format, key))
  }

  /** The service's answer: the HTTP status and the body text. */
  datatype HttpReply = HttpReply(status: int, body: string)

  /** `synthesize_speech`: the output path on a 200 answer, otherwise the status and the start of the body. */
  function Synthesize(text: string, outputPath: string, voice: string, format: string,
                      apiKey: string, envKey: string, reply: HttpReply): (r: Result<string>)
    ensures r.Ok? <==> Validate(text, voice, format, apiKey, envKey).Ok? && reply.status == 200
    ensures r.Ok? ==> r.value == outputPath
    ensures Validate(text, voice, format, apiKey, envKey).Err? ==>
              r == Err(Validate(text, voice, format, apiKey, envKey).error)
    ensures Validate(text, voice, format, apiKey, envKey).Ok? && reply.status != 200 ==>
              r == Err(SynthesisFailed(reply.status, Excerpt(reply.body, ErrorBodyLimit)))
  {
    var request :- Validate(text, voice, format, apiKey, envKey);
    if reply.status == 200 then Ok(outputPath)
    else Err(SynthesisFailed(reply.status, Excerpt(reply.body, ErrorBodyLimit)))
  }


  /** A text of exactly the limit passes the length check; one character more is rejected, never cut. */
  lemma LengthLimitIsInclusive(text: string, voice: string, format: string, apiKey: string, envKey: string)
    ensures |text| == MaxTextLength ==> !Validate(text, voice, format, apiKey, envKey).Err?
                                        || !Validate(text, voice, format, apiKey, envKey).error.TextTooLong?
    ensures |text| == MaxTextLength + 1 ==> Validate(text, voice, format, apiKey, envKey) == Err(TextTooLong(2001))
  {
  }

  /** `os.path.join(output_dir, f"tts_output_{i:03d}.{response_format}")` */
  function BatchPath(outputDir: string, i: nat, format: string): string {
    Join(outputDir, "tts_output_" + Pad3(i) + "." + format)
  }

  /** Distinct positions in a batch write to distinct files. */
  lemma BatchPathsDistinct(outputDir: string, i: nat, j: nat, format: string)
    requires BatchPath(outputDir, i, format) == BatchPath(outputDir, j, format)
    ensures i == j
  {
    var a := "tts_output_" + Pad3(i) + "." + format;
    var b := "tts_output_" + Pad3(j) + "." + format;
    assert a[0] == 't' && b[0] == 't';
    JoinInjective(outputDir, a, b);
    SameMiddle("tts_output_", Pad3(i), Pad3(j), ".", format);
    Pad3Injective(i, j);
  }

  /** The entry the batch records for one text: its path, or None when synthesis failed. */
  function BatchEntry(text: string, outputDir: string, position: nat, voice: string, format: string,
                      apiKey: string, envKey: string, reply: HttpReply): Option<string>
  {
    match Synthesize(text, BatchPath(outputDir, position, format), voice, format, apiKey, envKey, reply)
    case Ok(path) => Some(path)
    case Err(_) => None
  }

  /** An entry is the numbered output path exactly when that text was synthesised. */
  lemma BatchEntryShape(text: string, outputDir: string, position: nat, voice: string, format: string,
                        apiKey: string, envKey: string, reply: HttpReply)
    ensures var entry := BatchEntry(text, outputDir, position, voice, format, apiKey, envKey, reply);
            && (entry.Some? ==> entry.value == BatchPath(outputDir, position, format))
            && (entry.Some? <==> Validate(text, voice, format, apiKey, envKey).Ok? && reply.status == 200)
  {
  }

  /**
   `batch_synthesize`: one entry per text, in order, numbered from 1; a failed
   text leaves None and the loop carries on. `replies(i)` is the service's
   answer to the i-th request.
   */
  method BatchSynthesize(texts: seq<string>, outputDir: string, voice: string, format: string,
                         apiKey: string, envKey: string, replies: nat -> HttpReply)
    returns (paths: seq<Option<string>>)
    ensures |paths| == |texts|
    ensures forall i :: 0 <= i < |texts| ==>
              paths[i] == BatchEntry(texts[i], outputDir, i + 1, voice, format, apiKey, envKey, replies(i + 1))
  {
    paths := EachNumbered(texts, (text: string, position: nat) => BatchEntry(text, outputDir, position, voice, format, apiKey, envKey, replies(position)));
  }

  /** The batch loop: one entry per text, the i-th text at position i + 1. */
  method EachNumbered(texts: seq<string>, entry: (string, nat) -> Option<string>) returns (entries: seq<Option<string>>)
    ensures |entries| == |texts|
    ensures forall i :: 0 <= i < |texts| ==> entries[i] == entry(texts[i], i + 1)
  {
    entries := [];
    var i := 0;
    while i < |texts|
      invariant 0 <= i <= |texts|
      invariant |entries| == i
      invariant forall k :: 0 <= k < i ==> entries[k] == entry(texts[k], k + 1)
    {
      entries := entries + [entry(texts[i], i + 1)];
      i := i + 1;
    }
  }
}

=== FILE: text.dfy ===
/**
 The handful of Python `str` operations the pipeline relies on: `strip()`,
 `lower()`, `title()`, `startswith`/`endswith`, substring search (`in`) and
 zero-padded decimal formatting (`f"{i:03d}"`).

 Letter case is modelled for the ASCII letters only; every other character is
 treated as uncased, so `lower()` and `title()` leave it unchanged.
 */
module Text {

  // ---------------------------------------------------------------------------
  // Whitespace and strip()
  // ---------------------------------------------------------------------------

  /** The characters Python's `str.isspace()` accepts, which `str.strip()` removes. */
  predicate IsSpace(c: char) {
    || ('\t' <= c <= '\r')
    || ('\U{1c}' <= c <= ' ')
    || c == '\U{85}' || c == '\U{a0}' || c == '\U{1680}'
    || ('\U{2000}' <= c <= '\U{200a}')
    || c == '\U{2028}' || c == '\U{2029}' || c == '\U{202f}'
    || c == '\U{205f}' || c == '\U{3000}'
  }

  predicate AllSpace(s: string) {
    forall i :: 0 <= i < |s| ==> IsSpace(s[i])
  }

  /** `s.lstrip()`: the longest suffix of `s` that does not start with whitespace. */
  function TrimLeft(s: string): (r: string)
    ensures |r| <= |s| && r == s[|s| - |r|..]
    ensures AllSpace(s[..|s| - |r|])
    ensures |r| > 0 ==> !IsSpace(r[0])
  {
    if |s| > 0 && IsSpace(s[0]) then TrimLeft(s[1..]) else s
  }

  /** `s.rstrip()`: the longest prefix of `s` that does not end with whitespace. */
  function TrimRight(s: string): (r: string)
    ensures |r| <= |s| && r == s[..|r|]
    ensures AllSpace(s[|r|..])
    ensures |r| > 0 ==> !IsSpace(r[|r| - 1])
  {
    if |s| > 0 && IsSpace(s[|s| - 1]) then TrimRight(s[..|s| - 1]) else s
  }

  /** `r` is what is left of `s` once the whitespace before `lo` and after `lo + |r|` is cut. */
  predicate CutAt(s: string, lo: nat, r: string) {
    && lo + |r| <= |s|
    && r == s[lo..lo + |r|]
    && AllSpace(s[..lo])
    && AllSpace(s[lo + |r|..])
  }

  /** Where the stripped text starts: the number of leading whitespace characters. */
  function StripStart(s: string): nat {
    |s| - |TrimLeft(s)|
  }

  /** `s.strip()`: `s` with leading and trailing whitespace removed. */
  function Strip(s: string): (r: string)
    ensures |r| > 0 ==> !IsSpace(r[0]) && !IsSpace(r[|r| - 1])
    ensures CutAt(s, StripStart(s), r)
  {
    var l := TrimLeft(s);
    var r := TrimRight(l);
    var lo := |s| - |l|;
    assert l == s[lo..];
    assert s[lo..lo + |r|] == l[..|r|];
    assert s[lo + |r|..] == l[|r|..];
    assert CutAt(s, lo, r);
    r
  }

  /** One space on either side of a word is stripped away. */
  lemma StripOnePadding(w: string)
    requires |w| > 0 && !IsSpace(w[0]) && !IsSpace(w[|w| - 1])
    ensures Strip(" " + w + " ") == w
  {
    var s := " " + w + " ";
    assert s[1..] == w + " ";
    assert TrimLeft(w + " ") == w + " ";
    assert (w + " ")[..|w|] == w;
    assert TrimRight(w) == w;
  }

  /** Stripping removes everything exactly when the text is blank. */
  lemma StripEmptyIffBlank(s: string)
    ensures Strip(s) == "" <==> AllSpace(s)
  {
    var r := Strip(s);
    var lo := StripStart(s);
    if r == "" {
      var l := TrimLeft(s);
      assert l[|r|..] == l;
      assert lo == |s|;
      forall i | 0 <= i < |s| ensures IsSpace(s[i]) {
        assert s[..lo][i] == s[i];
      }
    } else {
      assert r[0] == s[lo];
    }
  }

  /** A text that neither starts nor ends with whitespace is its own strip. */
  lemma StripFixedPoint(s: string)
    requires |s| > 0 ==> !IsSpace(s[0]) && !IsSpace(s[|s| - 1])
    ensures Strip(s) == s
  {
    assert TrimLeft(s) == s;
    assert TrimRight(s) == s;
  }

  lemma StripIdempotent(s: string)
    ensures Strip(Strip(s)) == Strip(s)
  {
    StripFixedPoint(Strip(s));
  }

  // ---------------------------------------------------------------------------
  // Letter case
  // ---------------------------------------------------------------------------

  predicate IsUpper(c: char) { 'A' <= c <= 'Z' }
  predicate IsLower(c: char) { 'a' <= c <= 'z' }
  predicate IsLetter(c: char) { IsUpper(c) || IsLower(c) }

  function LowerChar(c: char): (d: char)
    ensures IsLetter(d) <==> IsLetter(c)
    ensures !IsUpper(d)
    ensures !IsLetter(c) ==> d == c
  {
    if IsUpper(c) then (c as int + 32) as char else c
  }

  function UpperChar(c: char): (d: char)
    ensures IsLetter(d) <==> IsLetter(c)
    ensures !IsLower(d)
    ensures !IsLetter(c) ==> d == c
  {
    if IsLower(c) then (c as int - 32) as char else c
  }

  /** Two characters are the same letter, or the same non-letter, regardless of case. */
  lemma CaseMapsAgree(c: char, d: char)
    requires LowerChar(c) == LowerChar(d)
    ensures UpperChar(c) == UpperChar(d)
    ensures IsLetter(c) <==> IsLetter(d)
  {
  }

  lemma CaseRoundTrip(c: char)
    ensures LowerChar(UpperChar(c)) == LowerChar(c)
    ensures LowerChar(LowerChar(c)) == LowerChar(c)
  {
  }

  /** `s.lower()` */
  function Lower(s: string): (r: string)
    ensures |r| == |s|
    ensures forall i :: 0 <= i < |s| ==> r[i] == LowerChar(s[i])
  {
    if |s| == 0 then "" else [LowerChar(s[0])] + Lower(s[1..])
  }

  lemma LowerFixedPoint(s: string)
    requires forall i :: 0 <= i < |s| ==> !IsUpper(s[i])
    ensures Lower(s) == s
  {
  }

  /** `a` and `b` spell the same text up to the case of their letters. */
  predicate SameIgnoringCase(a: string, b: string) {
    |a| == |b| && forall i :: 0 <= i < |a| ==> LowerChar(a[i]) == LowerChar(b[i])
  }

  /**
   `s.title()`, scanning left to right: a letter that follows a letter is put
   in lower case, every other letter in upper case. `afterLetter` says whether
   the character before `s` was a letter.
   */
  function TitleFrom(s: string, afterLetter: bool): (r: string)
    ensures |r| == |s|
    ensures |s| > 0 ==> r[0] == (if afterLetter then LowerChar(s[0]) else UpperChar(s[0]))
    ensures forall i :: 0 < i < |s| ==>
              r[i] == (if IsLetter(s[i - 1]) then LowerChar(s[i]) else UpperChar(s[i]))
  {
    if |s| == 0 then ""
    else
      var rest := TitleFrom(s[1..], IsLetter(s[0]));
      [if afterLetter then LowerChar(s[0]) else UpperChar(s[0])] + rest
  }

  function Title(s: string): (r: string)
    ensures |r| == |s|
    ensures forall i :: 0 <= i < |s| ==> IsLetter(r[i]) == IsLetter(s[i])
  {
    var r := TitleFrom(s, false);
    assert forall i :: 0 <= i < |s| ==> IsLetter(r[i]) == IsLetter(s[i]) by {
      forall i | 0 <= i < |s| ensures IsLetter(r[i]) == IsLetter(s[i]) {
        if i == 0 {
          assert r[0] == UpperChar(s[0]);
        } else {
          assert r[i] == (if IsLetter(s[i - 1]) then LowerChar(s[i]) else UpperChar(s[i]));
        }
      }
    }
    r
  }

  /** Title-casing only looks at letters up to case, so it is blind to the case of its input. */
  lemma TitleIgnoresCase(a: string, b: string)
    requires SameIgnoringCase(a, b)
    ensures Title(a) == Title(b)
  {
    forall i | 0 <= i < |a| ensures Title(a)[i] == Title(b)[i] {
      CaseMapsAgree(a[i], b[i]);
      if i > 0 { CaseMapsAgree(a[i - 1], b[i - 1]); }
    }
  }

  /** Title-casing changes the case of letters and nothing else. */
  lemma TitleOnlyChangesCase(s: string)
    ensures SameIgnoringCase(Title(s), s)
    ensures forall i :: 0 <= i < |s| && !IsLetter(s[i]) ==> Title(s)[i] == s[i]
  {
    var t := Title(s);
    forall i | 0 <= i < |s| ensures LowerChar(t[i]) == LowerChar(s[i]) {
      CaseRoundTrip(s[i]);
      if i == 0 {
        assert t[0] == UpperChar(s[0]);
      } else {
        assert t[i] == (if IsLetter(s[i - 1]) then LowerChar(s[i]) else UpperChar(s[i]));
      }
    }
  }

  lemma TitleIdempotent(s: string)
    ensures Title(Title(s)) == Title(s)
  {
    TitleOnlyChangesCase(s);
    TitleIgnoresCase(Title(s), s);
  }

  // ---------------------------------------------------------------------------
  // Prefixes, suffixes and substrings
  // ---------------------------------------------------------------------------

  predicate StartsWith(s: string, prefix: string) {
    |prefix| <= |s| && s[..|prefix|] == prefix
  }

  function Min(a: nat, b: nat): nat {
    if a <= b then a else b
  }

  /** `s[:n]`: the first n characters, or all of s when it is shorter. */
  function Excerpt(s: string, n: nat): (r: string)
    ensures |r| == Min(|s|, n)
    ensures StartsWith(s, r)
  {
    s[..Min(|s|, n)]
  }

  /** Two strings built around the same frame agree in the middle. */
  lemma SameMiddle(x: string, p: string, q: string, y: string, z: string)
    requires x + p + y + z == x + q + y + z
    ensures p == q
  {
    var s := x + p + y + z;
    assert |p| == |q|;
    assert s[|x|..|x| + |p|] == p;
    assert (x + q + y + z)[|x|..|x| + |q|] == q;
  }

  predicate EndsWith(s: string, suffix: string) {
    |suffix| <= |s| && s[|s| - |suffix|..] == suffix
  }

  predicate OccursAt(s: string, needle: string, i: int) {
    0 <= i <= |s| - |needle| && s[i..i + |needle|] == needle
  }

  /** `needle in s` for strings: a left-to-right search for an occurrence. */
  function Contains(s: string, needle: string): (r: bool)
    ensures r <==> exists i :: OccursAt(s, needle, i)
  {
    if StartsWith(s, needle) then
      assert OccursAt(s, needle, 0);
      true
    else if |s| == 0 then
      false
    else
      var r := Contains(s[1..], needle);
      assert r ==> exists i :: OccursAt(s, needle, i) by {
        if r {
          var j :| OccursAt(s[1..], needle, j);
          assert s[j + 1..j + 1 + |needle|] == s[1..][j..j + |needle|];
          assert OccursAt(s, needle, j + 1);
        }
      }
      assert (exists i :: OccursAt(s, needle, i)) ==> r by {
        if i :| OccursAt(s, needle, i) {
          assert i != 0;
          assert s[1..][i - 1..i - 1 + |needle|] == s[i..i + |needle|];
          assert OccursAt(s[1..], needle, i - 1);
        }
      }
      r
  }

  // ---------------------------------------------------------------------------
  // Decimal numbers
  // ---------------------------------------------------------------------------

  predicate IsDigit(c: char) { '0' <= c <= '9' }

  function DigitChar(d: nat): (c: char)
    requires d < 10
    ensures IsDigit(c)
  {
    ('0' as int + d) as char
  }

  /** The value of a string of decimal digits, most significant first. */
  function DecimalValue(s: string): nat
    requires forall i :: 0 <= i < |s| ==> IsDigit(s[i])
  {
    if |s| == 0 then 0
    else
      assert IsDigit(s[|s| - 1]);
      10 * DecimalValue(s[..|s| - 1]) + (s[|s| - 1] as int - '0' as int)
  }

  /** `str(n)`: the shortest decimal spelling of `n`. */
  function Decimal(n: nat): (r: string)
    ensures 0 < |r|
    ensures forall i :: 0 <= i < |r| ==> IsDigit(r[i])
    ensures n < 10 <==> |r| == 1
    ensures n < 100 ==> |r| <= 2
    ensures n >= 100 ==> |r| >= 3
    ensures n < 1000 ==> |r| <= 3
    ensures n >= 1000 ==> |r| > 3
    decreases n
  {
    if n < 10 then [DigitChar(n)]
    else
      var q := n / 10;
      assert (n < 100 ==> q < 10) && (n >= 100 ==> q >= 10);
      assert (n < 1000 ==> q < 100) && (n >= 1000 ==> q >= 100);
      Decimal(q) + [DigitChar(n % 10)]
  }

  function Zeros(k: nat): (r: string)
    ensures |r| == k && forall i :: 0 <= i < k ==> r[i] == '0'
  {
    if k == 0 then "" else "0" + Zeros(k - 1)
  }

  /** `f"{n:03d}"`: the decimal spelling of `n`, left-padded with zeros to three characters. */
  function Pad3(n: nat): (r: string)
    ensures forall i :: 0 <= i < |r| ==> IsDigit(r[i])
    ensures |r| == 3 <==> n < 1000
    ensures |r| >= 3
  {
    var d := Decimal(n);
    if |d| < 3 then Zeros(3 - |d|) + d else d
  }

  lemma {:induction false} DecimalRoundTrip(n: nat)
    ensures DecimalValue(Decimal(n)) == n
    decreases n
  {
    if n >= 10 {
      DecimalRoundTrip(n / 10);
      var d := Decimal(n);
      assert d[..|d| - 1] == Decimal(n / 10);
    }
  }

  lemma {:induction false} LeadingZerosIgnored(k: nat, s: string)
    requires forall i :: 0 <= i < |s| ==> IsDigit(s[i])
    ensures DecimalValue(Zeros(k) + s) == DecimalValue(s)
    decreases |s|
  {
    if |s| == 0 {
      ZerosValue(k);
      assert Zeros(k) + s == Zeros(k);
    } else {
      var t := Zeros(k) + s;
      assert t[..|t| - 1] == Zeros(k) + s[..|s| - 1];
      LeadingZerosIgnored(k, s[..|s| - 1]);
    }
  }

  lemma {:induction false} ZerosValue(k: nat)
    ensures DecimalValue(Zeros(k)) == 0
  {
    if k > 0 {
      var z := Zeros(k);
      assert z[..|z| - 1] == Zeros(k - 1);
      ZerosValue(k - 1);
    }
  }

  /** The padded spelling still reads back as `n`, so distinct numbers get distinct spellings. */
  lemma Pad3RoundTrip(n: nat)
    ensures DecimalValue(Pad3(n)) == n
  {
    DecimalRoundTrip(n);
    var d := Decimal(n);
    if |d| < 3 { LeadingZerosIgnored(3 - |d|, d); }
  }

  lemma Pad3Injective(a: nat, b: nat)
    requires Pad3(a) == Pad3(b)
    ensures a == b
  {
    Pad3RoundTrip(a);
    Pad3RoundTrip(b);
  }
}
